=== FILE: README.md ===
# Clueless word-dice session store, in Dafny

This project models the session store `src/stores/game.ts` of the Clueless word
dice game. Twelve letter dice lie on a 10-row by 13-column grid of 60-pixel cells.
The store:

- deals the dice into the upper-left 6 x 4 area and rolls them again on demand;
- moves, drags, selects and snaps the dice;
- scans every row and column for maximal runs of letters that form dictionary
  words of three or more letters;
- announces newly discovered words for three seconds;
- judges the puzzle solved when the kept runs cover twelve cells;
- renders a solved puzzle as a shareable text.

Every store action is a pure function from the old `GameState` to the new one.
Outside inputs are parameters:

- `Math.random()` is a `RandomSource`: call number `k` with range `n` picks
  `rand(k, n) < n`.
- `Date.now()` is an integer `now`.
- The fetch of the word file is an `Option<string>`. `None` means the fetch
  failed.

Modules follow the parts of the store:

- `Basics`: option, clamping and sequence helpers.
- `Letters`: case mapping, trimming, splitting, the dictionary filter and the
  fallback word list.
- `Grid`: grid constants and `snapToGrid`.
- `Dice`: the die, the face table, lookup by id, the selection box test, and
  clamped moves.
- `Placement`: `generateConstrainedRandomPositions`.
- `Runs`: maximal runs along one line.
- `Scanner`: the board, the row and column scan, and the cells of the kept runs.
- `Discovery`: the discovered set and the timed announcements.
- `Completion`: the completion test at the end of `checkForWords`.
- `Store`: the state and its actions.
- `Export`: `generatePuzzleText`.

Three behaviours of the code are easy to misread, and the model keeps them as
written:

- **Two dice can share a cell.** The fallback cell of a die whose 100 attempts
  all collide is neither checked against nor added to the used cells.
  `Placement.FallbackMayCollide` exhibits two dice on one cell.
- **Exported rows keep the cell spacing.** Each cell prints as three
  characters, so "CAT" prints as `" C  A  T"`, with two spaces between
  letters. `Export.ExampleTopRow` and `Export.ExampleBottomRow` state the exact
  lines.
- **Announcements are dropped, not cleared.** A `FoundWord`'s `isNew` flag is
  never reset. An announcement leaves the list once it is 3000 ms old.

## Model

| member | source | states |
|---|---|---|
| Letters.ParseWordList | src/stores/game.ts:83-90 | Every dictionary word is the trimmed, lower-cased form of some line of the file, and has 3 to 12 letters a-z. Every line whose normalised form passes that filter is in the dictionary. |
| Letters.SplitJoin | src/stores/game.ts:83 | Joining the pieces of `split('\n')` with the separator gives back the file text, so no text is lost between lines. |
| Letters.FallbackWordsWellFormed | src/stores/game.ts:95-146 | Every word of the embedded fallback list would also pass the word-file filter. |
| Letters.IsValidWordIgnoresCase | src/stores/game.ts:152-154 | `isValidWord` accepts a word exactly when it accepts the word's upper-case form. |
| Letters.UpperOfDictionaryWord | src/stores/game.ts:152-154 | A word accepted by the filtered dictionary upper-cases to 3 to 12 letters A-Z. |
| Store.LoadWords | src/stores/game.ts:79-149 | The store is marked loaded either way. A failed fetch installs exactly the fallback list. A fetched file installs exactly the normalised lines that pass the filter: each installed word comes from a line, and each passing line is installed. Nothing else changes. |
| Grid.SnapToGrid | src/stores/game.ts:157-170 | The result is a grid cell and its top-left corner pixel. A coordinate inside the grid lies within half a cell of that corner. Coordinates beyond an edge go to the first or last row or column. |
| Grid.SnapAxis | src/stores/game.ts:158-162 | The index of the nearest grid line, clamped to the grid. Ties round up, as `Math.round` does. |
| Grid.SnapIdempotent | src/stores/game.ts:157-170 | Snapping an already snapped position returns it unchanged. |
| Grid.NearestCellUnique | src/stores/game.ts:157-170 | A pixel has only one nearest cell, so the nearest-cell property that `snapToGrid` meets fixes its result. |
| Placement.Attempt | src/stores/game.ts:185-201 | A success returns the first unused cell drawn: every earlier attempt drew a used cell, and at most two draws per remaining attempt are spent. A failure spends exactly two draws per remaining attempt, 200 in all from a fresh start. |
| Placement.GiveUpMeansAllCollided | src/stores/game.ts:185-201 | The loop gives up only when every one of its 100 attempts drew a used cell. |
| Placement.AllCollisions | src/stores/game.ts:185-201 | If every attempt draws a used cell, the loop gives up after exactly 100 attempts. |
| Placement.PlaceDie | src/stores/game.ts:181-215 | A die gets a drawn cell outside the used set, or its fallback cell `(i / 4, i % 4)`, after at least one pair of draws. Either way the cell lies in the 6 x 4 area. |
| Placement.PlaceDieDrawnCell | src/stores/game.ts:185-201 | A drawn cell is the cell picked by the die's last pair of draws. |
| Placement.PlaceDieFirstUnused | src/stores/game.ts:185-201 | A drawn cell is the first unused draw: every earlier attempt of the die picked a used cell. |
| Placement.PlaceDieFallback | src/stores/game.ts:203-215 | The fallback cell is taken only after all 100 attempts, exactly 200 draws, picked used cells. |
| Placement.PlaceDieWithinBudget | src/stores/game.ts:185-201 | A drawn cell comes from one of the die's first 100 attempts: at most 200 draws are spent before it. |
| Placement.GenerateFrom | src/stores/game.ts:173-219 | The outer loop yields one slot per remaining die, all in the area. Every fallback slot holds its die's tiling cell. Drawn slots avoid the used cells and are pairwise distinct. |
| Placement.GeneratePositions | src/stores/game.ts:173-219 | The generator returns exactly twelve cells, all in the 6 x 4 area. |
| Placement.GeneratedShape | src/stores/game.ts:173-219 | Cells chosen by draws are pairwise distinct. The others follow the fallback tiling. |
| Placement.FallbackMayCollide | src/stores/game.ts:203-215 | With a source whose every attempt picks cell (0, 1), dice 1 and 2 both land on (0, 1). |
| Store.InitializeDice | src/stores/game.ts:222-238 | Twelve dice with ids 1 to 12 and their configured faces. Each shows one of its faces, sits on its generated cell at that cell's corner, and is neither dragged nor selected. Nothing else in the state changes. |
| Store.InitializeWellFormed | src/stores/game.ts:222-238 | Dealing into the empty store gives a state that satisfies the store invariant. |
| Store.RollDice | src/stores/game.ts:241-266 | Each die keeps its id and faces, shows one of its faces, and moves to its new generated cell, unselected and not dragged. The selection, the discovered words, the announcements and the puzzle state are reset. |
| Store.RollWellFormed | src/stores/game.ts:241-266 | Rolling keeps the store invariant. |
| Dice.FindDie | src/stores/game.ts:270 | The index of the first die with the id, or None exactly when no die has it. |
| Store.UpdateDiePosition | src/stores/game.ts:269-280 | Only the first die with the id changes. It moves to (x, y), or to the snapped corner and cell when snapping. An unknown id changes nothing. |
| Store.UpdateSnapsToNearest | src/stores/game.ts:272-275 | A snapping update puts the die on the grid cell nearest (x, y), at that cell's corner. |
| Store.UpdateWellFormed | src/stores/game.ts:269-280 | Moving one die keeps the store invariant. |
| Store.SetDragging | src/stores/game.ts:283-295 | Starting a drag only flags the die. Ending it clears the flag, snaps the die, and then scans. An unknown id changes nothing. |
| Store.DragEndSnaps | src/stores/game.ts:288-292 | After a drag ends, the die is not dragged, lies on the grid cell nearest where it was dropped, and sits at that cell's corner. |
| Store.SetDraggingWellFormed | src/stores/game.ts:283-295 | Dragging keeps the store invariant. |
| Store.ClearSelection | src/stores/game.ts:303-308 | No die is selected, and the selection list is empty. Nothing else changes. |
| Store.ClearWellFormed | src/stores/game.ts:303-308 | Clearing keeps the store invariant. |
| Store.SelectDie | src/stores/game.ts:311-319 | The die is flagged, and its id is in the selection. The id is appended only if absent. An unknown id changes nothing. |
| Store.SelectNoDuplicates | src/stores/game.ts:315-317 | Selecting never puts an id into the selection twice. |
| Store.SelectWellFormed | src/stores/game.ts:311-319 | Selecting keeps the store invariant. |
| Store.DeselectDie | src/stores/game.ts:322-328 | The die's flag is cleared. The selection loses exactly that id and keeps every other. An unknown id changes nothing. |
| Store.Without | src/stores/game.ts:326 | `filter(d => d.id !== id)` keeps exactly the other ids and never introduces a duplicate. |
| Store.DeselectWellFormed | src/stores/game.ts:322-328 | Deselecting keeps the store invariant. |
| Dice.InSelectionBoxIff | src/stores/game.ts:342-354 | A die is in the box exactly when the box is active and the die's centre lies between the two x corners and between the two y corners, in either order. |
| Dice.InSelectionBoxSymmetric | src/stores/game.ts:348-351 | Swapping the start and end corners does not change the answer. An inactive box contains nothing. |
| Dice.MoveBy | src/stores/game.ts:359-367 | Each coordinate moves by its offset when that stays in [0, 740] x [0, 540]. A coordinate pushed past an edge stops at that edge. Nothing but the position changes. |
| Store.ApplyToSelectedExact | src/stores/game.ts:358-368 | With distinct die ids and no id selected twice, each selected die gets the motion exactly once. Every other die is left alone. |
| Store.MoveSelectedDice | src/stores/game.ts:357-369 | Only the dice whose ids are selected change. Nothing outside the dice changes. |
| Store.MoveSelectedExact | src/stores/game.ts:357-369 | Under the invariant, each selected die moves by the clamped offset and keeps its grid cell. |
| Store.MoveSelectedWellFormed | src/stores/game.ts:357-369 | Moving the selection keeps the store invariant. |
| Dice.SnapDie | src/stores/game.ts:374-376 | The snapped die lies on the grid cell nearest its old position, at that cell's corner. Nothing else about it changes. |
| Dice.SnapDieIdempotent | src/stores/game.ts:374-376 | Snapping twice is snapping once. |
| Store.SnapSelectedDiceToGrid | src/stores/game.ts:372-379 | Unselected dice are untouched. The selection and the dictionary are kept. The result is the scan of the board with the snapped dice. |
| Store.SnapSelectedExact | src/stores/game.ts:372-379 | Under the invariant, every selected die ends up snapped, at its cell's corner. |
| Store.SnapSelectedWellFormed | src/stores/game.ts:372-379 | Snapping the selection keeps the store invariant. |
| Scanner.Occupancy | src/stores/game.ts:387-393 | A cell of the board is occupied exactly when some die's grid cell is that cell. |
| Scanner.OccupancyLast | src/stores/game.ts:390-393 | A cell shows the letter of the last die on it. |
| Scanner.LineOf | src/stores/game.ts:398-402 | Line `k` of a pass has 13 cells per row or 10 per column. Each holds the board's letter when occupied and nothing otherwise. |
| Runs.LineRunsIff | src/stores/game.ts:399-417 | The runs the inner loop closes are exactly the maximal runs of the line, each with its letters. |
| Runs.LineRunsOrdered | src/stores/game.ts:399-417 | The runs come left to right, and each ends before the next begins. |
| Scanner.AcceptedRuns | src/stores/game.ts:405-416 | A run is kept exactly when it has at least three letters and passes `isValidWord`. |
| Scanner.ScanWordsIff | src/stores/game.ts:395-441 | A word is listed exactly when it is the upper-cased letters of a kept maximal row run or column run. |
| Scanner.RowWordsFirst | src/stores/game.ts:397-441 | The list holds all the row words first, then all the column words. |
| Scanner.BothDirectionsTwice | src/stores/game.ts:397-441 | A word kept both in a row and in a column is listed at least twice. |
| Scanner.ScanWordsWellFormed | src/stores/game.ts:405-416 | With a filtered dictionary, every listed word is 3 to 12 letters A-Z. |
| Discovery.Announce | src/stores/game.ts:443-451 | Every listed word joins the discovered set. Exactly the words not discovered before are announced, stamped `now` and marked new. |
| Discovery.AnnouncedWords | src/stores/game.ts:443-451 | An announcement belongs to a scan exactly when its word was listed and not discovered before, it is stamped `now`, and it is marked new. |
| Discovery.AnnounceOnce | src/stores/game.ts:443-451 | One scan never announces a word twice, even if the list repeats it. |
| Discovery.AnnounceAgain | src/stores/game.ts:443-451 | Repeating a scan with the same words announces nothing and leaves the discovered set unchanged. |
| Discovery.Expire | src/stores/game.ts:454 | An announcement is kept exactly when it is younger than 3000 ms. |
| Discovery.ExpireLater | src/stores/game.ts:454 | Expiring at one time and then at a later time equals expiring at the later time. |
| Discovery.ExpiryBoundary | src/stores/game.ts:454 | An announcement made at `t` is shown at `t + 2999` and gone at `t + 3000`. |
| Discovery.ExpireAppend | src/stores/game.ts:454 | Filtering a concatenation filters each part and keeps their order. |
| Discovery.ExpireAllFresh | src/stores/game.ts:454 | A list whose announcements are all fresh passes the filter unchanged. |
| Scanner.UsedCellsIff | src/stores/game.ts:457-501 | A cell is counted exactly when it lies in a kept maximal row or column run. These are the same runs whose words are listed. |
| Scanner.UsedCellsOccupied | src/stores/game.ts:457-501 | Only occupied grid cells are counted. |
| Scanner.UsedCellsHaveWords | src/stores/game.ts:457-506 | Whenever some cell is counted, the word list is non-empty. |
| Completion.Judge | src/stores/game.ts:503-512 | The puzzle is complete exactly when twelve cells are counted and a word was listed. A win records the word list and the time. A loss only clears the flag. |
| Completion.WinsIff | src/stores/game.ts:503-512 | With twelve dice, the scan wins exactly when the dice lie on twelve different cells and every die's cell is counted. |
| Store.CheckForWords | src/stores/game.ts:382-513 | Without a dictionary nothing changes. Otherwise the discovered set grows by the listed words. Earlier announcements are kept while fresh and dropped when stale. Each listed word not discovered before is announced, stamped `now` and marked new. Every added announcement is of that kind; `Store.CheckForWordsFound` fixes their number and order. The puzzle is complete exactly when the completion test passes. Only the word tracking and the puzzle state change. |
| Store.CheckForWordsFound | src/stores/game.ts:443-454 | The announcement list after a scan is the fresh old announcements in their order, followed by one new announcement per newly discovered word in scan order. |
| Store.CheckForWordsAgain | src/stores/game.ts:443-454 | Scanning again with the dice where they are adds no discovered word and only ages the announcements. |
| Store.CheckForWordsWins | src/stores/game.ts:456-512 | Under the invariant, a scan completes the puzzle exactly when the dice are on twelve different cells and each lies in a kept run. |
| Store.CheckForWordsWellFormed | src/stores/game.ts:382-513 | Scanning keeps the store invariant. |
| Export.BoundsFromSpec | src/stores/game.ts:527-543 | After any prefix of the row-major walk, the bounds are the tightest box around the occupied cells seen so far. When none was seen, they are the starting values. |
| Export.PuzzleBoundsTight | src/stores/game.ts:527-543 | The box holds every occupied grid cell and each side touches one. It is non-empty exactly when some grid cell is occupied. |
| Export.CellText | src/stores/game.ts:552 | Three characters per cell: the letter between two spaces, or three spaces. |
| Export.RenderRow | src/stores/game.ts:549-553 | A row of the box has three characters per column, and block `j` is column `j`'s cell text. |
| Export.RowLineReadBack | src/stores/game.ts:548-555 | In a printed row, a non-blank letter stands at the middle of its cell's block. An empty cell's middle is a space wherever the trimmed line still reaches. |
| Export.TerminatedJoin | src/stores/game.ts:548-555 | Appending `'\n'` after each line equals joining the lines with newlines plus one final newline. |
| Export.PuzzleLineCount | src/stores/game.ts:528-555 | The text holds one box line per row from the first occupied row to the last, and none when no grid cell is occupied. |
| Export.PuzzleLineReadBack | src/stores/game.ts:528-555 | Every occupied grid cell's letter stands in its row's line, at the middle of its column's three characters. |
| Export.PuzzleLineEnds | src/stores/game.ts:528-555 | With a letter on the board, the first and last box lines each carry one of its letters. |
| Export.LetterInLine | src/stores/game.ts:528-555 | The letter of an occupied grid cell appears in the box line of its row. |
| Export.PuzzleText | src/stores/game.ts:516-561 | The text is empty exactly when the puzzle is not complete. Otherwise it starts with the header. |
| Export.BoardTextJoin | src/stores/game.ts:546-560 | A solved puzzle's text is the header, the printed rows joined by newlines, then "Words found: " with the words joined by ", ", then the footer. |
| Export.ExampleTopRow | src/stores/game.ts:548-555 | The row "CAT" prints as `" C  A  T"`. |
| Export.ExampleBottomRow | src/stores/game.ts:548-555 | A lone "O" under the "A" prints as `"    O"`. |

## Left out

- The network fetch of `/words.txt` and its error handling (lines 80-93) are not modelled. `LoadWords` takes the fetch outcome as an `Option<string>`.
- `copyPuzzleToClipboard` (lines 564-573) is a browser clipboard call and is not modelled.
- Pinia and Vue plumbing (`defineStore`, `ref`, the returned object) is not modelled. Each action maps a state to a state.
- `setDraggedDie` (lines 298-300) and `updateSelectionBox` (lines 331-339) only store their argument, so they are not modelled.
- Pixel coordinates are integers. The store works with JavaScript numbers that may be fractional, and `Math.round` is modelled for integer arguments only.
- `toLowerCase` and `toUpperCase` map ASCII letters only. The dice carry only the letters A-Z, so scanning is unaffected. Loading is affected: a word-file line such as "\u212Aite" (with a Kelvin sign) lower-cases to "kite" in JavaScript and enters the dictionary, but the model drops it.
- `checkForWords` reads `Date.now()` once per new word, once per announcement in the filter, and once for the completion time. The model uses one reading, `now`, for the whole scan.
- `Math.random()` is the `RandomSource` parameter. Its real-number draws are represented by the integer picks `Math.floor(Math.random() * n)`.
- `selectedDice` holds die ids, not references to die objects. After `initializeDice` (which does not clear the selection), the source keeps references to discarded objects. The model keeps ids that now name the new dice. Under the store invariant the two agree, and the invariant holds after dealing into an empty store.
- Store.RollDice: requires at most twelve dice, each with a face. The source reads one generated position per die and throws beyond the twelfth.
- The header's die emoji is U+1F3B2. The source file shows it as mojibake of its UTF-8 bytes.
- `grid[key]` truthiness: a die letter is always a one-letter string, so every occupied cell counts as occupied. The board is a map from cells to characters.

=== FILE: basics.dfy ===
/**
 * Small shared vocabulary: an optional value, integer clamping, duplicate-free
 * sequences, the set of a sequence's elements with its cardinality lemmas, and
 * flattening a sequence of sequences.
 */
module Basics {

  /** A value that may be absent (a lookup that finds nothing). */
  datatype Option<+T> = None | Some(value: T)

  function Min(a: int, b: int): int { if a <= b then a else b }

  function Max(a: int, b: int): int { if a >= b then a else b }

  /** `Math.max(lo, Math.min(v, hi))`, the clamping idiom used throughout the store. */
  function Clamp(v: int, lo: int, hi: int): (r: int)
    requires lo <= hi
    ensures lo <= r <= hi
    ensures lo <= v <= hi ==> r == v
    ensures v < lo ==> r == lo
    ensures v > hi ==> r == hi
  {
    Max(lo, Min(v, hi))
  }

  /** No element occurs twice. */
  predicate NoDuplicates<T(==)>(s: seq<T>) {
    forall i, j :: 0 <= i < j < |s| ==> s[i] != s[j]
  }

  /** The elements of a sequence, as a set. */
  function Elements<T>(s: seq<T>): set<T> {
    set x | x in s
  }

  /**
   * A sequence has at most as many distinct elements as it has positions, and
   * exactly as many when no element occurs twice.
   */
  lemma {:induction false} ElementsCard<T>(s: seq<T>)
    ensures |Elements(s)| <= |s|
    ensures |Elements(s)| == |s| <==> NoDuplicates(s)
    decreases |s|
  {
    if |s| > 0 {
      var front := s[..|s| - 1];
      var x := s[|s| - 1];
      ElementsCard(front);
      assert Elements(s) == Elements(front) + {x};
      if x in front {
        var i :| 0 <= i < |front| && front[i] == x;
        assert s[i] == s[|s| - 1];
      } else {
        assert |Elements(s)| == |Elements(front)| + 1;
        if NoDuplicates(front) {
          forall i, j | 0 <= i < j < |s|
            ensures s[i] != s[j]
          {
            if j < |s| - 1 {
              assert s[i] == front[i] && s[j] == front[j];
            } else {
              assert s[i] == front[i];
            }
          }
        } else {
          var i, j :| 0 <= i < j < |front| && front[i] == front[j];
          assert s[i] == s[j];
        }
      }
    }
  }

  /** A subset as large as its superset is the whole superset. */
  lemma SubsetCard<T>(a: set<T>, b: set<T>)
    requires a <= b
    ensures |a| <= |b|
    ensures |a| == |b| ==> a == b
  {
    assert b == a + (b - a);
    assert |b| == |a| + |b - a|;
  }

  /**
   * A set drawn from the elements of a sequence is as large as the sequence
   * exactly when the sequence has no repeats and the set holds every element.
   */
  lemma CoverCard<T>(a: set<T>, s: seq<T>)
    requires a <= Elements(s)
    ensures |a| == |s| <==> NoDuplicates(s) && forall i :: 0 <= i < |s| ==> s[i] in a
  {
    ElementsCard(s);
    SubsetCard(a, Elements(s));
    if NoDuplicates(s) && forall i :: 0 <= i < |s| ==> s[i] in a {
      forall x | x in Elements(s)
        ensures x in a
      {
        var i :| 0 <= i < |s| && s[i] == x;
      }
      assert a == Elements(s);
    }
  }

  /** The sequences of `xss` one after another. */
  function Flatten<T>(xss: seq<seq<T>>): seq<T>
    decreases |xss|
  {
    if |xss| == 0 then [] else xss[0] + Flatten(xss[1..])
  }

  /** An element of the flattened sequence is an element of one of the parts, and conversely. */
  lemma {:induction false} FlattenMember<T>(xss: seq<seq<T>>, x: T)
    ensures x in Flatten(xss) <==> exists i :: 0 <= i < |xss| && x in xss[i]
    decreases |xss|
  {
    if |xss| > 0 {
      FlattenMember(xss[1..], x);
      assert Flatten(xss) == xss[0] + Flatten(xss[1..]);
      if x in Flatten(xss[1..]) {
        var i :| 0 <= i < |xss[1..]| && x in xss[1..][i];
        assert x in xss[i + 1];
      }
      if exists i :: 0 <= i < |xss| && x in xss[i] {
        var i :| 0 <= i < |xss| && x in xss[i];
        if i > 0 {
          assert x in xss[1..][i - 1];
        }
      }
    }
  }
}

=== FILE: completion.dfy ===
/**
 * The completion test at the end of `checkForWords`: the puzzle is solved when
 * the kept row and column runs cover twelve cells and the scan listed at least
 * one word. A win records this scan's word list and the time; a loss only
 * clears the flag.
 */
module Completion {
  import opened Basics
  import opened Grid
  import opened Dice
  import opened Scanner
  import opened Placement

  /** Whether the puzzle is solved, with the winning scan's words and time. */
  datatype PuzzleState = PuzzleState(isComplete: bool, allWords: seq<string>, completionTime: int)

  /** The state of a fresh puzzle. */
  const InitialPuzzle: PuzzleState := PuzzleState(false, [], 0)

  /** `diceInWords.size === 12 && foundWordsList.length > 0` */
  predicate Wins(used: set<Cell>, words: seq<string>) {
    |used| == DiceCount && |words| > 0
  }

  /**
   * The puzzle state after a scan that used the cells `used` and listed
   * `words` at time `now`: a win replaces the word list and the time; a loss
   * keeps both and only clears the flag.
   */
  function Judge(puzzle: PuzzleState, used: set<Cell>, words: seq<string>, now: int): (p: PuzzleState)
    ensures p.isComplete <==> Wins(used, words)
    ensures p.isComplete ==> p.allWords == words && p.completionTime == now
    ensures !p.isComplete ==> p.allWords == puzzle.allWords && p.completionTime == puzzle.completionTime
  {
    if Wins(used, words) then PuzzleState(true, words, now)
    else puzzle.(isComplete := false)
  }

  /** The grid cells of the dice, in die order. */
  function CellsOf(dice: seq<Die>): seq<Cell> {
    seq(|dice|, i requires 0 <= i < |dice| => dice[i].gridPosition)
  }

  /** The occupied cells of the board are the cells of the dice. */
  lemma OccupiedCells(dice: seq<Die>)
    ensures Occupancy(dice).Keys == Elements(CellsOf(dice))
  {
    var cells := CellsOf(dice);
    forall c | c in Elements(cells)
      ensures c in Occupancy(dice)
    {
      var i :| 0 <= i < |cells| && cells[i] == c;
      assert dice[i].gridPosition == c;
    }
    forall c | c in Occupancy(dice)
      ensures c in Elements(cells)
    {
      var i :| 0 <= i < |dice| && dice[i].gridPosition == c;
      assert cells[i] == c;
    }
  }

  /**
   * The judge's test on any scan whose used cells come from twelve dice cells
   * and which lists a word whenever it uses a cell.
   */
  lemma WinsByCells(used: set<Cell>, words: seq<string>, cells: seq<Cell>)
    requires |cells| == DiceCount
    requires used <= Elements(cells)
    requires used != {} ==> |words| > 0
    ensures Wins(used, words) <==> NoDuplicates(cells) && forall i :: 0 <= i < |cells| ==> cells[i] in used
  {
    CoverCard(used, cells);
  }

  /**
   * With twelve dice, the scan wins exactly when the dice lie on twelve
   * different cells and every die's cell lies in a kept row or column run;
   * the test for a non-empty word list then always passes.
   */
  lemma WinsIff(dice: seq<Die>, dict: set<string>)
    requires |dice| == DiceCount
    ensures var board := Occupancy(dice);
      Wins(UsedCells(board, dict), ScanWords(board, dict)) <==>
        && NoDuplicates(CellsOf(dice))
        && forall i :: 0 <= i < |dice| ==> CellsOf(dice)[i] in UsedCells(board, dict)
  {
    var board := Occupancy(dice);
    var used := UsedCells(board, dict);
    OccupiedCells(dice);
    forall c | c in used
      ensures c in Elements(CellsOf(dice))
    {
      UsedCellsOccupied(board, dict, c);
    }
    if used != {} {
      var c :| c in used;
      UsedCellsHaveWords(board, dict, c);
    }
    WinsByCells(used, ScanWords(board, dict), CellsOf(dice));
  }
}

=== FILE: dice.dfy ===
/**
 * The die entity, the static face table, lookup by id (`dice.find(d => d.id === id)`)
 * and the single-die geometry behind `isDieInSelectionBox`, `moveSelectedDice`
 * and the snapping actions.
 */
module Dice {
  import opened Basics
  import opened Grid

  /**
   * A letter tile. `position` is its free pixel position; `gridPosition` is
   * the cell word scanning reads, updated only when the die is snapped.
   */
  datatype Die = Die(
    id: int,
    letters: seq<char>,
    currentLetter: char,
    position: Point,
    gridPosition: Cell,
    isDragging: bool,
    isSelected: bool)

  /** The rectangle dragged out for box selection, in pixels, corners in either order. */
  datatype SelectionBox = SelectionBox(startX: int, startY: int, endX: int, endY: int, isActive: bool)

  /** The faces of dice 1 to 12, in id order. */
  const Faces: seq<string> := [
    "CJTDBC", "KGPPFV", "RWLWFD", "RGRGLD", "CMCTTS", "WHPTTH",
    "EOUAIU", "RNNRHH", "NIINOY", "AAEEOO", "BZKXSN", "LLMMYB"
  ]

  /** Half the 60-pixel die: the offset from a die's position to its centre. */
  const HalfDie: int := 30
  /** Largest x a dragged selection may be moved to. */
  const MaxX: int := 740
  /** Largest y a dragged selection may be moved to. */
  const MaxY: int := 540

  /** `dice.find(d => d.id === id)`, as the index of the first die with that id. */
  function FindDie(dice: seq<Die>, id: int): (r: Option<nat>)
    ensures r.Some? ==> r.value < |dice| && dice[r.value].id == id
    ensures r.Some? ==> forall j :: 0 <= j < r.value ==> dice[j].id != id
    ensures r.None? <==> forall j :: 0 <= j < |dice| ==> dice[j].id != id
    decreases |dice|
  {
    if |dice| == 0 then None
    else if dice[0].id == id then Some(0)
    else match FindDie(dice[1..], id)
      case None => None
      case Some(j) => Some(j + 1)
  }

  /** The ids of the dice, in order. */
  function Ids(dice: seq<Die>): seq<int> {
    seq(|dice|, i requires 0 <= i < |dice| => dice[i].id)
  }

  /** `isDieInSelectionBox(die)`: the die's centre lies inside the active box, edges included. */
  predicate InSelectionBox(die: Die, box: SelectionBox) {
    if !box.isActive then false
    else
      var cx := die.position.x + HalfDie;
      var cy := die.position.y + HalfDie;
      && Min(box.startX, box.endX) <= cx <= Max(box.startX, box.endX)
      && Min(box.startY, box.endY) <= cy <= Max(box.startY, box.endY)
  }

  /** Between two bounds given in either order. */
  predicate Between(v: int, a: int, b: int) {
    (a <= v <= b) || (b <= v <= a)
  }

  /**
   * A die is in the box exactly when the box is active and the die's centre
   * lies between the two x corners and between the two y corners, whichever
   * corner is the start.
   */
  lemma InSelectionBoxIff(die: Die, box: SelectionBox)
    ensures InSelectionBox(die, box) <==>
      && box.isActive
      && Between(die.position.x + HalfDie, box.startX, box.endX)
      && Between(die.position.y + HalfDie, box.startY, box.endY)
  {
  }

  /** Swapping the start and end corners does not change which dice are in the box. */
  lemma InSelectionBoxSymmetric(die: Die, box: SelectionBox)
    ensures InSelectionBox(die, box)
        == InSelectionBox(die, SelectionBox(box.endX, box.endY, box.startX, box.startY, box.isActive))
    ensures !box.isActive ==> !InSelectionBox(die, box)
  {
  }

  /** The die with its position moved by an offset and clamped to [0, 740] x [0, 540]. */
  function MoveBy(die: Die, offsetX: int, offsetY: int): (d: Die)
    ensures 0 <= d.position.x <= MaxX && 0 <= d.position.y <= MaxY
    ensures 0 <= die.position.x + offsetX <= MaxX ==> d.position.x == die.position.x + offsetX
    ensures 0 <= die.position.y + offsetY <= MaxY ==> d.position.y == die.position.y + offsetY
    ensures die.position.x + offsetX < 0 ==> d.position.x == 0
    ensures die.position.x + offsetX > MaxX ==> d.position.x == MaxX
    ensures die.position.y + offsetY < 0 ==> d.position.y == 0
    ensures die.position.y + offsetY > MaxY ==> d.position.y == MaxY
    ensures d == die.(position := d.position)
  {
    die.(position := Point(Clamp(die.position.x + offsetX, 0, MaxX), Clamp(die.position.y + offsetY, 0, MaxY)))
  }

  /** The die snapped to the cell nearest its position: position and grid cell both change. */
  function SnapDie(die: Die): (d: Die)
    ensures NearestCell(die.position, d.gridPosition)
    ensures InGrid(d.gridPosition)
    ensures d.position == Corner(d.gridPosition)
    ensures d == die.(position := d.position, gridPosition := d.gridPosition)
  {
    var s := SnapToGrid(die.position.x, die.position.y);
    die.(position := s.Pixel(), gridPosition := s.GridCell())
  }

  /** Snapping a snapped die changes nothing. */
  lemma SnapDieIdempotent(die: Die)
    ensures SnapDie(SnapDie(die)) == SnapDie(die)
  {
    SnapIdempotent(die.position.x, die.position.y);
  }
}

=== FILE: discovery.dfy ===
/**
 * Discovery tracking, the middle of `checkForWords`: each scanned word not yet
 * in the permanent discovered set is added to it and announced as a new
 * `FoundWord` stamped with the current time; announcements older than three
 * seconds are then dropped. The clock reading `now` is a parameter.
 */
module Discovery {
  import opened Basics

  /** An announcement of a newly discovered word. */
  datatype FoundWord = FoundWord(word: string, timestamp: int, isNew: bool)

  /** How long, in milliseconds, an announcement stays in the list. */
  const DisplayTime: int := 3000

  /** The announcements one scan adds and the discovered set after it. */
  datatype Announced = Announced(found: seq<FoundWord>, discovered: set<string>)

  /** The words of a list of announcements, in order. */
  function WordsOf(found: seq<FoundWord>): seq<string> {
    seq(|found|, i requires 0 <= i < |found| => found[i].word)
  }

  /**
   * The `foundWordsList.forEach` loop: every scanned word joins the discovered
   * set, and the words that were not already in it are announced once each,
   * stamped `now`, in the order the scan met them.
   */
  function Announce(words: seq<string>, discovered: set<string>, now: int): (r: Announced)
    ensures r.discovered == discovered + set w | w in words
    ensures forall w :: w in WordsOf(r.found) <==> w in words && w !in discovered
    ensures forall i :: 0 <= i < |r.found| ==> r.found[i].timestamp == now && r.found[i].isNew
    decreases |words|
  {
    if |words| == 0 then Announced([], discovered)
    else
      assert words == [words[0]] + words[1..];
      if words[0] in discovered then Announce(words[1..], discovered, now)
      else
        var rest := Announce(words[1..], discovered + {words[0]}, now);
        var found := [FoundWord(words[0], now, true)] + rest.found;
        assert WordsOf(found) == [words[0]] + WordsOf(rest.found);
        Announced(found, rest.discovered)
  }

  /** No word is announced twice by one scan. */
  lemma {:induction false} AnnounceOnce(words: seq<string>, discovered: set<string>, now: int)
    ensures NoDuplicates(WordsOf(Announce(words, discovered, now).found))
    decreases |words|
  {
    if |words| > 0 {
      if words[0] in discovered {
        assert Announce(words, discovered, now) == Announce(words[1..], discovered, now);
        AnnounceOnce(words[1..], discovered, now);
      } else {
        var rest := Announce(words[1..], discovered + {words[0]}, now);
        AnnounceOnce(words[1..], discovered + {words[0]}, now);
        var ws := WordsOf(Announce(words, discovered, now).found);
        assert ws == [words[0]] + WordsOf(rest.found);
        assert words[0] !in WordsOf(rest.found);
        forall i, j | 0 <= i < j < |ws|
          ensures ws[i] != ws[j]
        {
          assert ws[j] == WordsOf(rest.found)[j - 1];
          assert ws[j] in WordsOf(rest.found);
          if i > 0 {
            assert ws[i] == WordsOf(rest.found)[i - 1];
          }
        }
      }
    }
  }

  /** The announcements of one scan are exactly the scanned words not discovered before, each stamped `now`. */
  lemma AnnouncedWords(words: seq<string>, discovered: set<string>, now: int)
    ensures var found := Announce(words, discovered, now).found;
      forall fw :: fw in found <==> fw.word in words && fw.word !in discovered && fw.timestamp == now && fw.isNew
  {
    var found := Announce(words, discovered, now).found;
    forall fw | fw in found
      ensures fw.word in WordsOf(found)
    {
      var i :| 0 <= i < |found| && found[i] == fw;
      assert WordsOf(found)[i] == fw.word;
    }
    forall fw: FoundWord | fw.word in words && fw.word !in discovered && fw.timestamp == now && fw.isNew
      ensures fw in found
    {
      var i :| 0 <= i < |found| && WordsOf(found)[i] == fw.word;
      assert found[i] == fw;
    }
  }

  /** Scanning words that are all discovered already announces nothing and changes nothing. */
  lemma {:induction false} AnnounceKnown(words: seq<string>, discovered: set<string>, now: int)
    requires forall w :: w in words ==> w in discovered
    ensures Announce(words, discovered, now) == Announced([], discovered)
    decreases |words|
  {
    if |words| > 0 {
      assert words[0] in discovered;
      AnnounceKnown(words[1..], discovered, now);
    }
  }

  /** Repeating a scan with the same words, at any later time, announces nothing. */
  lemma AnnounceAgain(words: seq<string>, discovered: set<string>, now: int, later: int)
    ensures var r := Announce(words, discovered, now);
      Announce(words, r.discovered, later) == Announced([], r.discovered)
  {
    AnnounceKnown(words, Announce(words, discovered, now).discovered, later);
  }

  /** An announcement is still shown at time `now`. */
  predicate Fresh(fw: FoundWord, now: int) {
    now - fw.timestamp < DisplayTime
  }

  /** `foundWords.filter(fw => Date.now() - fw.timestamp < 3000)`, one clock reading for the whole list. */
  function Expire(found: seq<FoundWord>, now: int): (kept: seq<FoundWord>)
    ensures forall fw :: fw in kept <==> fw in found && Fresh(fw, now)
    ensures |kept| <= |found|
    decreases |found|
  {
    if |found| == 0 then []
    else if Fresh(found[0], now) then [found[0]] + Expire(found[1..], now)
    else Expire(found[1..], now)
  }

  /** Expiring at one time and then at a later time is the same as expiring at the later time. */
  lemma {:induction false} ExpireLater(found: seq<FoundWord>, now: int, later: int)
    requires now <= later
    ensures Expire(Expire(found, now), later) == Expire(found, later)
    decreases |found|
  {
    if |found| > 0 {
      ExpireLater(found[1..], now, later);
      if Fresh(found[0], now) {
        assert Expire(found, now) == [found[0]] + Expire(found[1..], now);
        assert ([found[0]] + Expire(found[1..], now))[1..] == Expire(found[1..], now);
      }
    }
  }

  /** Expiring a concatenation expires each part in turn: the filter keeps the list order. */
  lemma {:induction false} ExpireAppend(a: seq<FoundWord>, b: seq<FoundWord>, now: int)
    ensures Expire(a + b, now) == Expire(a, now) + Expire(b, now)
    decreases |a|
  {
    if |a| > 0 {
      assert (a + b)[0] == a[0];
      assert (a + b)[1..] == a[1..] + b;
      ExpireAppend(a[1..], b, now);
    } else {
      assert a + b == b;
    }
  }

  /** Announcements that are all still shown pass the filter unchanged. */
  lemma {:induction false} ExpireAllFresh(found: seq<FoundWord>, now: int)
    requires forall i :: 0 <= i < |found| ==> Fresh(found[i], now)
    ensures Expire(found, now) == found
    decreases |found|
  {
    if |found| > 0 {
      assert Fresh(found[0], now);
      ExpireAllFresh(found[1..], now);
      assert [found[0]] + found[1..] == found;
    }
  }

  /** An announcement made at `t` is still shown at `t + 2999` and gone at `t + 3000`. */
  lemma ExpiryBoundary(w: string, t: int)
    ensures Expire([FoundWord(w, t, true)], t + 2999) == [FoundWord(w, t, true)]
    ensures Expire([FoundWord(w, t, true)], t + 3000) == []
  {
    assert [FoundWord(w, t, true)][1..] == [];
  }
}

=== FILE: export.dfy ===
/**
 * `generatePuzzleText`: the bounding box of the occupied
 * grid cells drawn one text line per row, three characters per cell (" L "
 * for a letter, three spaces for an empty cell) with trailing whitespace
 * trimmed, framed by a header and followed by the winning word list.
 */
module Export {
  import opened Basics
  import opened Letters
  import opened Grid
  import opened Dice
  import opened Scanner
  import opened Completion

  /** The first line of the text and the blank line after it (a die emoji on each side of the title). */
  const Header: string := "\U{1F3B2} Clueless Puzzle Solution \U{1F3B2}\n\n"
  /** What precedes the word list. */
  const WordsLabel: string := "\nWords found: "
  /** The closing line and the blank line before it. */
  const Footer: string := "\n\nSolved in Clueless - the word dice game!"

  /** The rows and columns of the box that holds the occupied cells. */
  datatype Bounds = Bounds(minRow: int, maxRow: int, minCol: int, maxCol: int)

  /** The starting values of the bounds loop, which stay put when no cell is occupied. */
  const NoBounds: Bounds := Bounds(Rows, -1, Cols, -1)

  /** Cell number `n` of the row-major walk over the grid. */
  function CellAt(n: int): Cell {
    Cell(n / Cols, n % Cols)
  }

  /** The position of a grid cell in the row-major walk. */
  function Index(c: Cell): int {
    c.row * Cols + c.col
  }

  /** Walking the grid row by row meets each grid cell once, at its index. */
  lemma CellAtIndex(c: Cell)
    requires InGrid(c)
    ensures 0 <= Index(c) < Rows * Cols && CellAt(Index(c)) == c
  {
  }

  /** An occupied grid cell among the first `n` cells of the walk. */
  ghost predicate Seen(board: Board, n: int, c: Cell) {
    InGrid(c) && c in board && Index(c) < n
  }

  /** The bounds grown to take in cell `c`. */
  function Widen(b: Bounds, c: Cell): Bounds {
    Bounds(Min(b.minRow, c.row), Max(b.maxRow, c.row), Min(b.minCol, c.col), Max(b.maxCol, c.col))
  }

  /** The nested bounds loop after the first `n` cells of the walk. */
  function BoundsFrom(board: Board, n: int): Bounds
    requires 0 <= n <= Rows * Cols
  {
    if n == 0 then NoBounds
    else
      var b := BoundsFrom(board, n - 1);
      if CellAt(n - 1) in board then Widen(b, CellAt(n - 1)) else b
  }

  /** The box `b` contains cell `c`. */
  predicate Within(b: Bounds, c: Cell) {
    b.minRow <= c.row <= b.maxRow && b.minCol <= c.col <= b.maxCol
  }

  /** Each side of the box `b` touches an occupied cell among the first `n`. */
  ghost predicate Tight(board: Board, n: int, b: Bounds) {
    && (exists c :: Seen(board, n, c) && c.row == b.minRow)
    && (exists c :: Seen(board, n, c) && c.row == b.maxRow)
    && (exists c :: Seen(board, n, c) && c.col == b.minCol)
    && (exists c :: Seen(board, n, c) && c.col == b.maxCol)
  }

  /**
   * After `n` cells the loop holds the smallest box around the occupied cells
   * seen so far, or its starting values when none was seen.
   */
  lemma {:induction false} BoundsFromSpec(board: Board, n: int)
    requires 0 <= n <= Rows * Cols
    ensures forall c :: Seen(board, n, c) ==> Within(BoundsFrom(board, n), c)
    ensures (exists c :: Seen(board, n, c)) ==> Tight(board, n, BoundsFrom(board, n))
    ensures (forall c :: !Seen(board, n, c)) ==> BoundsFrom(board, n) == NoBounds
  {
    if n > 0 {
      var m := n - 1;
      BoundsFromSpec(board, m);
      var c := CellAt(m);
      assert InGrid(c) && Index(c) == m;
      forall d | Seen(board, n, d) && d != c
        ensures Seen(board, m, d)
      {
        CellAtIndex(d);
      }
      forall d | Seen(board, m, d)
        ensures Seen(board, n, d)
      {
      }
      if c in board {
        assert Seen(board, n, c);
        var none := forall d :: !Seen(board, m, d);
        if none {
          assert BoundsFrom(board, m) == NoBounds;
        } else {
          var w :| Seen(board, m, w);
          assert Tight(board, m, BoundsFrom(board, m));
        }
      }
    }
  }

  /** `minRow`, `maxRow`, `minCol`, `maxCol` after the loop over the whole grid. */
  function PuzzleBounds(board: Board): Bounds {
    BoundsFrom(board, Rows * Cols)
  }

  /**
   * The box holds every occupied grid cell and each of its sides touches one;
   * with no occupied grid cell it is empty (first row after last row).
   */
  lemma PuzzleBoundsTight(board: Board)
    ensures forall c :: InGrid(c) && c in board ==> Within(PuzzleBounds(board), c)
    ensures (exists c :: InGrid(c) && c in board) ==> Tight(board, Rows * Cols, PuzzleBounds(board))
    ensures (exists c :: InGrid(c) && c in board) <==> PuzzleBounds(board).minRow <= PuzzleBounds(board).maxRow
  {
    BoundsFromSpec(board, Rows * Cols);
    forall c | InGrid(c) && c in board
      ensures Seen(board, Rows * Cols, c)
    {
      CellAtIndex(c);
    }
    if exists c :: InGrid(c) && c in board {
      var c :| InGrid(c) && c in board;
      assert Within(PuzzleBounds(board), c);
    }
  }

  /** `grid[key] ? ` ${grid[key]} ` : '   '` */
  function CellText(board: Board, row: int, col: int): (t: string)
    ensures |t| == 3 && t[0] == ' ' && t[2] == ' '
    ensures Cell(row, col) in board ==> t[1] == board[Cell(row, col)]
    ensures Cell(row, col) !in board ==> t[1] == ' '
  {
    if Cell(row, col) in board then [' ', board[Cell(row, col)], ' '] else "   "
  }

  /** Columns `col` to `maxCol` of one row of the box, before trimming. */
  function RenderRow(board: Board, row: int, col: int, maxCol: int): (line: string)
    ensures col <= maxCol + 1 ==> |line| == 3 * (maxCol + 1 - col)
    ensures col > maxCol ==> line == ""
    ensures forall j :: 0 <= j <= maxCol - col ==> line[3 * j..3 * j + 3] == CellText(board, row, col + j)
    decreases maxCol + 1 - col
  {
    if col > maxCol then ""
    else
      var head := CellText(board, row, col);
      var rest := RenderRow(board, row, col + 1, maxCol);
      var line := head + rest;
      forall j | 0 <= j <= maxCol - col
        ensures line[3 * j..3 * j + 3] == CellText(board, row, col + j)
      {
        if j == 0 {
          assert line[0..3] == head;
        } else {
          BlockAfterHead(head, rest, j - 1);
          assert rest[3 * (j - 1)..3 * (j - 1) + 3] == CellText(board, row, (col + 1) + (j - 1));
        }
      }
      line
  }

  /** Block `j` of `rest` is block `j + 1` of `head + rest` when `head` is one block long. */
  lemma BlockAfterHead(head: string, rest: string, j: nat)
    requires |head| == 3 && 3 * j + 3 <= |rest|
    ensures (head + rest)[3 * (j + 1)..3 * (j + 1) + 3] == rest[3 * j..3 * j + 3]
  {
  }

  /** One row of the box as it appears in the text: `line.trimEnd()`. */
  function RowLine(board: Board, row: int, minCol: int, maxCol: int): string {
    TrimEnd(RenderRow(board, row, minCol, maxCol))
  }

  /**
   * Reading a printed row back: a letter that is not whitespace stands at
   * the middle of its cell's three characters, and an empty cell's middle
   * character, where the line still reaches it, is a space.
   */
  lemma RowLineReadBack(board: Board, row: int, minCol: int, maxCol: int, j: int)
    requires 0 <= j <= maxCol - minCol
    ensures var line := RowLine(board, row, minCol, maxCol);
      && (Cell(row, minCol + j) in board && !IsWhitespace(board[Cell(row, minCol + j)]) ==>
            3 * j + 1 < |line| && line[3 * j + 1] == board[Cell(row, minCol + j)])
      && (Cell(row, minCol + j) !in board && 3 * j + 1 < |line| ==> line[3 * j + 1] == ' ')
  {
    var raw := RenderRow(board, row, minCol, maxCol);
    assert raw[3 * j..3 * j + 3] == CellText(board, row, minCol + j);
    assert raw[3 * j + 1] == CellText(board, row, minCol + j)[1];
  }

  /** `text += line + '\n'` for each line in order. */
  function Terminated(lines: seq<string>): string
    decreases |lines|
  {
    if |lines| == 0 then "" else lines[0] + "\n" + Terminated(lines[1..])
  }

  /** Ending each line with a newline is joining the lines with newlines and adding one at the end. */
  lemma {:induction false} TerminatedJoin(lines: seq<string>)
    ensures Terminated(lines) == if |lines| == 0 then "" else Join(lines, "\n") + "\n"
    decreases |lines|
  {
    if |lines| > 1 {
      TerminatedJoin(lines[1..]);
    }
  }

  /** The printed lines of the box, one per row from `row` to `b.maxRow`. */
  function BoxLines(board: Board, b: Bounds, row: int): (lines: seq<string>) {
    seq(Max(0, b.maxRow + 1 - row), i requires 0 <= i < Max(0, b.maxRow + 1 - row) =>
      RowLine(board, row + i, b.minCol, b.maxCol))
  }

  /** The header, the box one row per line, and the words, for an occupied board. */
  function BoardText(board: Board, words: seq<string>): string {
    var b := PuzzleBounds(board);
    Header + Terminated(BoxLines(board, b, b.minRow)) + WordsLabel + Join(words, ", ") + Footer
  }

  /**
   * `generatePuzzleText()`: empty unless the puzzle is complete; otherwise
   * the header, the box one row per line, and the winning words.
   */
  function PuzzleText(dice: seq<Die>, puzzle: PuzzleState): (text: string)
    ensures !puzzle.isComplete <==> text == ""
    ensures puzzle.isComplete ==> Header <= text
  {
    if !puzzle.isComplete then "" else BoardText(Occupancy(dice), puzzle.allWords)
  }

  /**
   * The text of a board is the header, the printed rows of its box joined by
   * newlines with a newline after the last (nothing when the box is empty),
   * then the words joined by ", " and the footer.
   */
  lemma BoardTextJoin(board: Board, words: seq<string>)
    ensures var b := PuzzleBounds(board);
      var lines := BoxLines(board, b, b.minRow);
      BoardText(board, words) ==
        Header + (if |lines| == 0 then "" else Join(lines, "\n") + "\n") + WordsLabel + Join(words, ", ") + Footer
  {
    var b := PuzzleBounds(board);
    TerminatedJoin(BoxLines(board, b, b.minRow));
  }

  /**
   * The box of a board prints one line per row from its first occupied row to
   * its last, and no line at all when no grid cell is occupied.
   */
  lemma PuzzleLineCount(board: Board)
    ensures var b := PuzzleBounds(board);
      var lines := BoxLines(board, b, b.minRow);
      && ((exists c :: InGrid(c) && c in board) ==> |lines| == b.maxRow + 1 - b.minRow)
      && ((forall c :: InGrid(c) ==> c !in board) ==> |lines| == 0)
  {
    PuzzleBoundsTight(board);
  }

  /**
   * Every occupied grid cell can be read back from the text: its letter, when
   * not whitespace, stands in the line of its row, at the middle of its
   * column's three characters.
   */
  lemma PuzzleLineReadBack(board: Board, c: Cell)
    requires InGrid(c) && c in board && !IsWhitespace(board[c])
    ensures var b := PuzzleBounds(board);
      var lines := BoxLines(board, b, b.minRow);
      var i, j := c.row - b.minRow, c.col - b.minCol;
      && 0 <= i < |lines| && 0 <= j && 3 * j + 1 < |lines[i]| && lines[i][3 * j + 1] == board[c]
  {
    var b := PuzzleBounds(board);
    PuzzleBoundsWithin(board, c);
    BoxLineAt(board, b, c.row - b.minRow);
    RowLineReadBack(board, c.row, b.minCol, b.maxCol, c.col - b.minCol);
  }

  /** An occupied grid cell lies in the box. */
  lemma PuzzleBoundsWithin(board: Board, c: Cell)
    requires InGrid(c) && c in board
    ensures Within(PuzzleBounds(board), c)
  {
    PuzzleBoundsTight(board);
  }

  /** Line `i` of a non-empty box is the printed row `b.minRow + i`. */
  lemma BoxLineAt(board: Board, b: Bounds, i: int)
    requires 0 <= i <= b.maxRow - b.minRow
    ensures var lines := BoxLines(board, b, b.minRow);
      |lines| == b.maxRow + 1 - b.minRow && lines[i] == RowLine(board, b.minRow + i, b.minCol, b.maxCol)
  {
    assert Max(0, b.maxRow + 1 - b.minRow) == b.maxRow + 1 - b.minRow;
  }

  /** The first and the last printed line each carry a letter of the board. */
  lemma PuzzleLineEnds(board: Board)
    requires forall c :: c in board ==> !IsWhitespace(board[c])
    requires exists c :: InGrid(c) && c in board
    ensures var b := PuzzleBounds(board);
      var lines := BoxLines(board, b, b.minRow);
      && |lines| > 0
      && (exists c :: InGrid(c) && c in board && board[c] in lines[0])
      && (exists c :: InGrid(c) && c in board && board[c] in lines[|lines| - 1])
  {
    var b := PuzzleBounds(board);
    var top, bottom := PuzzleEdgeRows(board);
    var i := LetterInLine(board, top);
    var j := LetterInLine(board, bottom);
    assert i == 0;
    assert j == |BoxLines(board, b, b.minRow)| - 1 by {
      BoxLineAt(board, b, 0);
    }
  }

  /** The letter of an occupied grid cell appears in line `i`, the line of the cell's row. */
  lemma LetterInLine(board: Board, c: Cell) returns (i: int)
    requires InGrid(c) && c in board && !IsWhitespace(board[c])
    ensures var b := PuzzleBounds(board);
      var lines := BoxLines(board, b, b.minRow);
      && i == c.row - b.minRow && 0 <= i < |lines| && board[c] in lines[i]
  {
    var b := PuzzleBounds(board);
    i := c.row - b.minRow;
    PuzzleLineReadBack(board, c);
  }

  /** Occupied grid cells on the first and on the last row of the box. */
  lemma PuzzleEdgeRows(board: Board) returns (top: Cell, bottom: Cell)
    requires exists c :: InGrid(c) && c in board
    ensures InGrid(top) && top in board && top.row == PuzzleBounds(board).minRow
    ensures InGrid(bottom) && bottom in board && bottom.row == PuzzleBounds(board).maxRow
  {
    PuzzleBoundsTight(board);
    top :| Seen(board, Rows * Cols, top) && top.row == PuzzleBounds(board).minRow;
    bottom :| Seen(board, Rows * Cols, bottom) && bottom.row == PuzzleBounds(board).maxRow;
  }

  /** The box "CAT" over a lone "O" under the "A". */
  function ExampleBoard(): Board {
    map[Cell(0, 0) := 'C', Cell(0, 1) := 'A', Cell(0, 2) := 'T', Cell(1, 1) := 'O']
  }

  /** The top row of the example prints as " C  A  T": two spaces between letters, the trailing space trimmed. */
  lemma ExampleTopRow()
    ensures RowLine(ExampleBoard(), 0, 0, 2) == " C  A  T"
  {
    var board := ExampleBoard();
    assert RenderRow(board, 0, 2, 2) == " T ";
    assert RenderRow(board, 0, 1, 2) == " A " + " T ";
    assert RenderRow(board, 0, 0, 2) == " C  A  T ";
    assert " C  A  T "[..8] == " C  A  T";
  }

  /** The bottom row prints as "    O": the empty first cell keeps its spaces, the empty last cell is trimmed away. */
  lemma ExampleBottomRow()
    ensures RowLine(ExampleBoard(), 1, 0, 2) == "    O"
  {
    var board := ExampleBoard();
    assert RenderRow(board, 1, 2, 2) == "   ";
    assert RenderRow(board, 1, 1, 2) == " O " + "   ";
    assert RenderRow(board, 1, 0, 2) == "    O    ";
    assert "    O    "[..8] == "    O   ";
    assert "    O   "[..7] == "    O  ";
    assert "    O  "[..6] == "    O ";
    assert "    O "[..5] == "    O";
  }
}

=== FILE: grid.dfy ===
/**
 * The grid behind `snapToGrid`: the 10 x 13 lattice of 60-pixel cells whose
 * top-left corner sits at pixel (10, 10), and `snapToGrid`, which maps a pixel
 * coordinate to the nearest cell and to that cell's corner.
 * Pixels are integers here.
 */
module Grid {
  import opened Basics

  const CellSize: int := 60
  const Cols: int := 13
  const Rows: int := 10
  const OffsetX: int := 10
  const OffsetY: int := 10

  /** A grid address. */
  datatype Cell = Cell(row: int, col: int)

  /** A pixel position. */
  datatype Point = Point(x: int, y: int)

  /** What `snapToGrid` returns: the cell's corner pixel and the cell itself. */
  datatype Snapped = Snapped(x: int, y: int, row: int, col: int) {
    function GridCell(): Cell { Cell(row, col) }
    function Pixel(): Point { Point(x, y) }
  }

  predicate InGrid(c: Cell) {
    0 <= c.row < Rows && 0 <= c.col < Cols
  }

  /** The canonical pixel of a cell: its top-left corner. */
  function Corner(c: Cell): Point {
    Point(c.col * CellSize + OffsetX, c.row * CellSize + OffsetY)
  }

  /** `Math.round(v / 60)` for an integer `v`: halves round up, also for negative `v`. */
  function RoundDiv(v: int): int {
    (v + CellSize / 2) / CellSize
  }

  /**
   * One axis of the snap: the index of the nearest of `count` grid lines,
   * which start at `offset` and are `CellSize` apart; a tie goes to the higher
   * line, and coordinates beyond the first or last line go to that line.
   */
  function SnapAxis(v: int, offset: int, count: int): (i: int)
    requires count > 0
    ensures 0 <= i < count
    ensures offset - CellSize / 2 <= v < offset + count * CellSize - CellSize / 2 ==>
              i * CellSize + offset - CellSize / 2 <= v < i * CellSize + offset + CellSize / 2
    ensures v < offset - CellSize / 2 ==> i == 0
    ensures v >= offset + count * CellSize - CellSize / 2 ==> i == count - 1
  {
    Clamp(RoundDiv(v - offset), 0, count - 1)
  }

  /** Below this pixel coordinate everything snaps to the first column (-20). */
  const SnapLowX: int := OffsetX - CellSize / 2
  /** From this pixel coordinate on everything snaps to the last column (760). */
  const SnapHighX: int := OffsetX + Cols * CellSize - CellSize / 2
  /** Below this pixel coordinate everything snaps to the first row (-20). */
  const SnapLowY: int := OffsetY - CellSize / 2
  /** From this pixel coordinate on everything snaps to the last row (580). */
  const SnapHighY: int := OffsetY + Rows * CellSize - CellSize / 2

  /**
   * `c` is the grid cell whose corner is nearest the pixel `p`: inside the
   * grid `p` lies within half a cell of that corner, and beyond an edge it
   * belongs to the first or last row or column.
   */
  predicate NearestCell(p: Point, c: Cell) {
    && InGrid(c)
    && (SnapLowX <= p.x < SnapHighX ==> Corner(c).x - CellSize / 2 <= p.x < Corner(c).x + CellSize / 2)
    && (SnapLowY <= p.y < SnapHighY ==> Corner(c).y - CellSize / 2 <= p.y < Corner(c).y + CellSize / 2)
    && (p.x < SnapLowX ==> c.col == 0)
    && (p.x >= SnapHighX ==> c.col == Cols - 1)
    && (p.y < SnapLowY ==> c.row == 0)
    && (p.y >= SnapHighY ==> c.row == Rows - 1)
  }

  /** A pixel has exactly one nearest cell. */
  lemma NearestCellUnique(p: Point, c: Cell, c': Cell)
    requires NearestCell(p, c) && NearestCell(p, c')
    ensures c == c'
  {
  }

  /** `snapToGrid(x, y)`. */
  function SnapToGrid(x: int, y: int): (s: Snapped)
    ensures NearestCell(Point(x, y), s.GridCell())
    ensures InGrid(s.GridCell())
    ensures s.Pixel() == Corner(s.GridCell())
    ensures SnapLowX <= x < SnapHighX ==> s.x - CellSize / 2 <= x < s.x + CellSize / 2
    ensures SnapLowY <= y < SnapHighY ==> s.y - CellSize / 2 <= y < s.y + CellSize / 2
    ensures x < SnapLowX ==> s.col == 0
    ensures x >= SnapHighX ==> s.col == Cols - 1
    ensures y < SnapLowY ==> s.row == 0
    ensures y >= SnapHighY ==> s.row == Rows - 1
  {
    var col := SnapAxis(x, OffsetX, Cols);
    var row := SnapAxis(y, OffsetY, Rows);
    Snapped(col * CellSize + OffsetX, row * CellSize + OffsetY, row, col)
  }

  /** Every cell's corner snaps to that same cell. */
  lemma SnapCorner(c: Cell)
    requires InGrid(c)
    ensures SnapToGrid(Corner(c).x, Corner(c).y).GridCell() == c
  {
  }

  /** Snapping an already snapped coordinate changes nothing. */
  lemma SnapIdempotent(x: int, y: int)
    ensures var s := SnapToGrid(x, y); SnapToGrid(s.x, s.y) == s
  {
    SnapCorner(SnapToGrid(x, y).GridCell());
  }
}

=== FILE: letters.dfy ===
/**
 * String handling the store relies on: ASCII case mapping (`toLowerCase`,
 * `toUpperCase`), whitespace trimming (`trim`, `trimEnd`), splitting and
 * joining, and the dictionary: the filter `loadWords` applies to each line of
 * the word file, the embedded fallback list, and the membership test
 * `isValidWord`.
 */
module Letters {

  /** Upper-case ASCII letter. */
  predicate IsUpperLetter(c: char) { 'A' <= c <= 'Z' }

  /** Lower-case ASCII letter. */
  predicate IsLowerLetter(c: char) { 'a' <= c <= 'z' }

  function LowerChar(c: char): char {
    if IsUpperLetter(c) then (c as int + 32) as char else c
  }

  function UpperChar(c: char): char {
    if IsLowerLetter(c) then (c as int - 32) as char else c
  }

  /** `s.toLowerCase()`, restricted to the ASCII alphabet. */
  function Lower(s: string): string {
    seq(|s|, i requires 0 <= i < |s| => LowerChar(s[i]))
  }

  /** `s.toUpperCase()`, restricted to the ASCII alphabet. */
  function Upper(s: string): string {
    seq(|s|, i requires 0 <= i < |s| => UpperChar(s[i]))
  }

  /** The characters JavaScript's `trim` and `trimEnd` remove: WhiteSpace and LineTerminator. */
  predicate IsWhitespace(c: char) {
    || c == '\t' || c == '\n' || c == '\U{B}' || c == '\U{C}' || c == '\r' || c == ' '
    || c == '\U{A0}' || c == '\U{1680}' || ('\U{2000}' <= c <= '\U{200A}')
    || c == '\U{2028}' || c == '\U{2029}' || c == '\U{202F}' || c == '\U{205F}'
    || c == '\U{3000}' || c == '\U{FEFF}'
  }

  /** `s.trimEnd()`: the longest prefix of `s` that does not end in whitespace. */
  function TrimEnd(s: string): (r: string)
    ensures r <= s
    ensures forall i :: |r| <= i < |s| ==> IsWhitespace(s[i])
    ensures |r| == 0 || !IsWhitespace(r[|r| - 1])
    decreases |s|
  {
    if |s| > 0 && IsWhitespace(s[|s| - 1]) then TrimEnd(s[..|s| - 1]) else s
  }

  /** `s.trimStart()`: the longest suffix of `s` that does not start with whitespace. */
  function TrimStart(s: string): (r: string)
    ensures |r| <= |s| && r == s[|s| - |r|..]
    ensures forall i :: 0 <= i < |s| - |r| ==> IsWhitespace(s[i])
    ensures |r| == 0 || !IsWhitespace(r[0])
    decreases |s|
  {
    if |s| > 0 && IsWhitespace(s[0]) then TrimStart(s[1..]) else s
  }

  /** `s.trim()`. */
  function Trim(s: string): string {
    TrimStart(TrimEnd(s))
  }

  /** `s.split(sep)` for a one-character separator: the pieces between separators, in order. */
  function Split(s: string, sep: char): (parts: seq<string>)
    ensures |parts| > 0
    ensures forall k :: 0 <= k < |parts| ==> sep !in parts[k]
    decreases |s|
  {
    if |s| == 0 then [""]
    else
      var rest := Split(s[1..], sep);
      if s[0] == sep then [""] + rest
      else [[s[0]] + rest[0]] + rest[1..]
  }

  /** `parts.join(sep)`. */
  function Join(parts: seq<string>, sep: string): string
    decreases |parts|
  {
    if |parts| == 0 then ""
    else if |parts| == 1 then parts[0]
    else parts[0] + sep + Join(parts[1..], sep)
  }

  /** Joining the pieces of a split with the separator gives back the original text. */
  lemma {:induction false} SplitJoin(s: string, sep: char)
    ensures Join(Split(s, sep), [sep]) == s
    decreases |s|
  {
    if |s| > 0 {
      var rest := Split(s[1..], sep);
      SplitJoin(s[1..], sep);
      if s[0] == sep {
        assert Split(s, sep) == [""] + rest;
        assert ([""] + rest)[1..] == rest;
        assert s == [sep] + s[1..];
      } else {
        var parts := Split(s, sep);
        assert parts == [[s[0]] + rest[0]] + rest[1..];
        if |rest| == 1 {
          assert s == [s[0]] + rest[0];
        } else {
          assert parts[1..] == rest[1..];
          assert Join(rest, [sep]) == rest[0] + [sep] + Join(rest[1..], [sep]);
          assert s == [s[0]] + s[1..];
        }
      }
    }
  }

  /** The filter `loadWords` keeps: 3 to 12 characters, all lower-case letters a-z. */
  predicate DictionaryWord(w: string) {
    3 <= |w| <= 12 && forall i :: 0 <= i < |w| ==> IsLowerLetter(w[i])
  }

  /** One line of the word file after `trim().toLowerCase()`. */
  function Normalize(line: string): string {
    Lower(Trim(line))
  }

  /** The dictionary built from the text of the word file. */
  function ParseWordList(text: string): (dict: set<string>)
    ensures forall w :: w in dict ==> DictionaryWord(w)
    ensures forall w :: w in dict ==> exists line :: line in Split(text, '\n') && Normalize(line) == w
    ensures forall line :: line in Split(text, '\n') ==>
              (Normalize(line) in dict <==> DictionaryWord(Normalize(line)))
  {
    set line | line in Split(text, '\n') && DictionaryWord(Normalize(line)) :: Normalize(line)
  }

  /**
   * The embedded word list used when the word file cannot be loaded. The
   * row constants below follow the order of the listing in `loadWords`.
   */
  const FallbackWords: set<string> :=
    FallbackRow1 + FallbackRow2 + FallbackRow3 + FallbackRow4 + FallbackRow5

  const FallbackRow1: set<string> := {"cat", "dog", "the", "and", "but", "car", "bat", "hat", "mat", "rat"}
  const FallbackRow2: set<string> := {"get", "set", "pet", "net", "bet", "let", "met", "wet", "yet", "jet"}
  const FallbackRow3: set<string> := {"big", "pig", "fig", "dig", "wig", "jig", "rig", "bag", "tag", "rag"}
  const FallbackRow4: set<string> := {"run", "fun", "sun", "gun", "bun", "nun", "pun", "cut", "but", "hut"}
  const FallbackRow5: set<string> := {"game", "time", "play", "word", "make", "take", "give", "love", "home"}

  /** Every word of the fallback list would also pass the word-file filter. */
  lemma FallbackWordsWellFormed()
    ensures forall w :: w in FallbackWords ==> DictionaryWord(w)
  {
    Row1WellFormed();
    Row2WellFormed();
    Row3WellFormed();
    Row4WellFormed();
    Row5WellFormed();
  }

  /** Each row of the fallback list passes the word-file filter on its own. */
  lemma Row1WellFormed()
    ensures forall w :: w in FallbackRow1 ==> DictionaryWord(w)
  {
  }

  lemma Row2WellFormed()
    ensures forall w :: w in FallbackRow2 ==> DictionaryWord(w)
  {
  }

  lemma Row3WellFormed()
    ensures forall w :: w in FallbackRow3 ==> DictionaryWord(w)
  {
  }

  lemma Row4WellFormed()
    ensures forall w :: w in FallbackRow4 ==> DictionaryWord(w)
  {
  }

  lemma Row5WellFormed()
    ensures forall w :: w in FallbackRow5 ==> DictionaryWord(w)
  {
  }

  /** `isValidWord`: a candidate is accepted when its lower-case form is in the dictionary. */
  predicate IsValidWord(dict: set<string>, w: string) {
    Lower(w) in dict
  }

  /** Lower-casing forgets an earlier upper-casing. */
  lemma LowerOfUpper(w: string)
    ensures Lower(Upper(w)) == Lower(w)
  {
    forall i | 0 <= i < |w|
      ensures Lower(Upper(w))[i] == Lower(w)[i]
    {
      var c := w[i];
      assert Upper(w)[i] == UpperChar(c);
    }
  }

  /** `isValidWord` ignores case: a word and its upper-cased form are accepted alike. */
  lemma IsValidWordIgnoresCase(dict: set<string>, w: string)
    ensures IsValidWord(dict, Upper(w)) <==> IsValidWord(dict, w)
  {
    LowerOfUpper(w);
  }

  /**
   * A word whose lower-case form passes the dictionary filter upper-cases to
   * 3 to 12 letters A-Z.
   */
  lemma UpperOfDictionaryWord(w: string)
    requires DictionaryWord(Lower(w))
    ensures 3 <= |Upper(w)| <= 12
    ensures forall i :: 0 <= i < |Upper(w)| ==> IsUpperLetter(Upper(w)[i])
  {
    forall i | 0 <= i < |w|
      ensures IsUpperLetter(Upper(w)[i])
    {
      assert IsLowerLetter(Lower(w)[i]);
    }
  }
}

=== FILE: placement.dfy ===
/**
 * `generateConstrainedRandomPositions`: twelve cells inside the 6-column x
 * 4-row upper-left corner of the grid, each found by up to 100 random draws
 * rejected when the cell is already used, with a fixed fallback cell when
 * every draw collides.
 *
 * `Math.random()` is a `RandomSource`: draw number `k` over a range of `n`
 * values is `rand(k, n)`, and every operation that draws takes the index of
 * its first draw and returns the index of the next unused one.
 */
module Placement {
  import opened Basics
  import opened Grid

  /**
   * The successive calls `Math.floor(Math.random() * n)`: call number `k`
   * with range `n` picks `rand(k, n)`.
   */
  type RandomSource = (nat, nat) -> nat

  /** `Math.random()` lies in [0, 1), so each pick lies below its range. */
  ghost predicate ValidSource(rand: RandomSource) {
    forall k: nat, n: nat :: n > 0 ==> rand(k, n) < n
  }

  const DiceCount: int := 12
  /** `Math.min(6, GRID_COLS)` */
  const AreaCols: int := 6
  /** `Math.min(4, GRID_ROWS)` */
  const AreaRows: int := 4
  const MaxAttempts: int := 100
  /** Width of the fallback tiling. */
  const FallbackWidth: int := 4

  /** Inside the upper-left placement area. */
  predicate InArea(c: Cell) {
    0 <= c.row < AreaRows && 0 <= c.col < AreaCols
  }

  /** The cell one attempt picks from draws `k` (column) and `k + 1` (row). */
  function DrawnCell(rand: RandomSource, k: nat): (c: Cell)
    requires ValidSource(rand)
    ensures InArea(c)
  {
    Cell(rand(k + 1, AreaRows), rand(k, AreaCols))
  }

  /** The cell the fallback tiling gives die `i`: `(floor(i / 4), i % 4)`. */
  function FallbackCell(i: nat): Cell {
    Cell(i / FallbackWidth, i % FallbackWidth)
  }

  /** Every attempt that starts at a draw from `k` up to (not including) `n` picks a used cell. */
  predicate Collided(rand: RandomSource, used: set<Cell>, k: nat, n: int)
    requires ValidSource(rand)
  {
    forall j: nat :: k <= j < n && (j - k) % 2 == 0 ==> DrawnCell(rand, j) in used
  }

  /** The outcome of one die's do-while loop: the accepted cell, if any, and the next draw index. */
  datatype Draw = Draw(cell: Option<Cell>, next: nat)

  /**
   * The do-while loop for one die, entered with `attempts` attempts already
   * spent: the first drawn cell not in `used`, or None once 100 attempts have
   * collided.
   */
  function Attempt(rand: RandomSource, k: nat, used: set<Cell>, attempts: nat): (r: Draw)
    requires ValidSource(rand)
    requires attempts < MaxAttempts
    ensures r.next >= k + 2
    ensures r.cell.Some? ==> r.cell.value == DrawnCell(rand, r.next - 2) && r.cell.value !in used
    ensures r.cell.None? ==> r.next == k + 2 * (MaxAttempts - attempts)
    ensures r.cell.Some? ==> r.next <= k + 2 * (MaxAttempts - attempts) && (r.next - k) % 2 == 0
    ensures r.cell.Some? ==> Collided(rand, used, k, r.next - 2)
    decreases MaxAttempts - attempts
  {
    var c := DrawnCell(rand, k);
    if c !in used then Draw(Some(c), k + 2)
    else if attempts + 1 < MaxAttempts then
      var r := Attempt(rand, k + 2, used, attempts + 1);
      assert r.cell.Some? ==> Collided(rand, used, k, r.next - 2) by {
        if r.cell.Some? {
          forall j: nat | k <= j < r.next - 2 && (j - k) % 2 == 0
            ensures DrawnCell(rand, j) in used
          {
            if j != k {
              assert k + 2 <= j && (j - (k + 2)) % 2 == 0;
            }
          }
        }
      }
      r
    else Draw(None, k + 2)
  }

  /** Where one die was put, and whether a random draw (rather than the fallback) chose it. */
  datatype Slot = Slot(cell: Cell, drawn: bool)

  /** One die's slot and the next draw index. */
  datatype Step = Step(slot: Slot, next: nat)

  /** Die `i`'s turn of the outer loop: the drawn cell, or the fallback cell when the loop gave up. */
  function PlaceDie(rand: RandomSource, i: nat, k: nat, used: set<Cell>): (s: Step)
    requires ValidSource(rand)
    requires i < DiceCount
    ensures s.next >= k + 2
    ensures InArea(s.slot.cell)
    ensures s.slot.drawn ==> s.slot.cell !in used
    ensures !s.slot.drawn ==> s.slot.cell == FallbackCell(i)
  {
    var d := Attempt(rand, k, used, 0);
    match d.cell
    case Some(c) => Step(Slot(c, true), d.next)
    case None => Step(Slot(FallbackCell(i), false), d.next)
  }

  /** A drawn cell is the one the die's last pair of draws picked. */
  lemma PlaceDieDrawnCell(rand: RandomSource, i: nat, k: nat, used: set<Cell>)
    requires ValidSource(rand)
    requires i < DiceCount
    ensures var s := PlaceDie(rand, i, k, used);
      s.slot.drawn ==> s.slot.cell == DrawnCell(rand, s.next - 2)
  {
    var d := Attempt(rand, k, used, 0);
    if d.cell.Some? {
      assert PlaceDie(rand, i, k, used) == Step(Slot(d.cell.value, true), d.next);
    }
  }

  /** A drawn cell is the first unused draw: every earlier attempt of the die picked a used cell. */
  lemma PlaceDieFirstUnused(rand: RandomSource, i: nat, k: nat, used: set<Cell>)
    requires ValidSource(rand)
    requires i < DiceCount
    ensures var s := PlaceDie(rand, i, k, used);
      s.slot.drawn ==> Collided(rand, used, k, s.next - 2)
  {
    var d := Attempt(rand, k, used, 0);
    if d.cell.Some? {
      assert PlaceDie(rand, i, k, used) == Step(Slot(d.cell.value, true), d.next);
    }
  }

  /** The fallback cell is taken only after all 100 attempts, 200 draws, picked used cells. */
  lemma PlaceDieFallback(rand: RandomSource, i: nat, k: nat, used: set<Cell>)
    requires ValidSource(rand)
    requires i < DiceCount
    ensures var s := PlaceDie(rand, i, k, used);
      !s.slot.drawn ==> s.next == k + 2 * MaxAttempts && Collided(rand, used, k, s.next)
  {
    if Attempt(rand, k, used, 0).cell.None? {
      GiveUpMeansAllCollided(rand, k, used, 0);
    }
  }

  /** A drawn cell comes from one of the die's 100 attempts: at most 200 draws are spent. */
  lemma PlaceDieWithinBudget(rand: RandomSource, i: nat, k: nat, used: set<Cell>)
    requires ValidSource(rand)
    requires i < DiceCount
    ensures var s := PlaceDie(rand, i, k, used);
      s.slot.drawn ==> s.next <= k + 2 * MaxAttempts
  {
    var d := Attempt(rand, k, used, 0);
    if d.cell.Some? {
      assert PlaceDie(rand, i, k, used) == Step(Slot(d.cell.value, true), d.next);
    }
  }

  /** `usedPositions` after a slot: only drawn cells are added. */
  function Record(used: set<Cell>, slot: Slot): set<Cell> {
    if slot.drawn then used + {slot.cell} else used
  }

  /** The slots of all twelve dice and the next draw index. */
  datatype Layout = Layout(slots: seq<Slot>, next: nat)

  /**
   * The outer loop from die `i` on. The fallback cell is neither checked
   * against nor added to `used`.
   */
  function GenerateFrom(rand: RandomSource, i: nat, k: nat, used: set<Cell>): (r: Layout)
    requires ValidSource(rand)
    requires i <= DiceCount
    ensures |r.slots| == DiceCount - i
    ensures r.next >= k
    ensures forall j :: 0 <= j < |r.slots| ==> InArea(r.slots[j].cell)
    ensures ProperSlots(r.slots, i, used)
    decreases DiceCount - i
  {
    if i == DiceCount then Layout([], k)
    else
      var s := PlaceDie(rand, i, k, used);
      var rest := GenerateFrom(rand, i + 1, s.next, Record(used, s.slot));
      ConsSlots([s.slot] + rest.slots, s.slot, rest.slots, i, used);
      Layout([s.slot] + rest.slots, rest.next)
  }

  /** Every slot the fallback chose holds its die's fallback cell; the first slot is die `i`'s. */
  predicate FallbackTiled(slots: seq<Slot>, i: nat) {
    forall j :: 0 <= j < |slots| && !slots[j].drawn ==> slots[j].cell == FallbackCell(i + j)
  }

  /** No drawn slot holds a cell of `used`. */
  predicate DrawnAvoid(slots: seq<Slot>, used: set<Cell>) {
    forall j :: 0 <= j < |slots| && slots[j].drawn ==> slots[j].cell !in used
  }

  /** No two drawn slots hold the same cell. */
  predicate DrawnDistinct(slots: seq<Slot>) {
    forall a, b :: 0 <= a < b < |slots| && slots[a].drawn && slots[b].drawn ==> slots[a].cell != slots[b].cell
  }

  /** The three slot properties together, for the slots from die `i` on. */
  predicate ProperSlots(slots: seq<Slot>, i: nat, used: set<Cell>) {
    FallbackTiled(slots, i) && DrawnAvoid(slots, used) && DrawnDistinct(slots)
  }

  /** The slot properties carry over from `rest` to `[slot] + rest`. */
  lemma ConsSlots(slots: seq<Slot>, slot: Slot, rest: seq<Slot>, i: nat, used: set<Cell>)
    requires slots == [slot] + rest
    requires ProperSlots(rest, i + 1, Record(used, slot))
    requires !slot.drawn ==> slot.cell == FallbackCell(i)
    requires slot.drawn ==> slot.cell !in used
    ensures ProperSlots(slots, i, used)
  {
    forall j | 1 <= j < |slots|
      ensures slots[j] == rest[j - 1]
    {
    }
  }

  /** `generateConstrainedRandomPositions()`, drawing from index `k` on: twelve cells inside the area. */
  function GeneratePositions(rand: RandomSource, k: nat): (layout: Layout)
    requires ValidSource(rand)
    ensures |layout.slots| == DiceCount
    ensures forall j :: 0 <= j < DiceCount ==> InArea(layout.slots[j].cell)
  {
    GenerateFrom(rand, 0, k, {})
  }

  /** The cells the generator chose by draws are pairwise distinct; the others follow the fallback tiling. */
  lemma GeneratedShape(rand: RandomSource, k: nat)
    requires ValidSource(rand)
    ensures DrawnDistinct(GeneratePositions(rand, k).slots)
    ensures FallbackTiled(GeneratePositions(rand, k).slots, 0)
  {
    assert ProperSlots(GenerateFrom(rand, 0, k, {}).slots, 0, {});
  }

  /** The loop gives up only when every one of its attempts drew a used cell. */
  lemma {:induction false} GiveUpMeansAllCollided(rand: RandomSource, k: nat, used: set<Cell>, attempts: nat)
    requires ValidSource(rand)
    requires attempts < MaxAttempts
    requires Attempt(rand, k, used, attempts).cell.None?
    ensures forall j: nat :: k <= j < k + 2 * (MaxAttempts - attempts) && (j - k) % 2 == 0 ==>
              DrawnCell(rand, j) in used
    decreases MaxAttempts - attempts
  {
    assert DrawnCell(rand, k) in used;
    if attempts + 1 < MaxAttempts {
      GiveUpMeansAllCollided(rand, k + 2, used, attempts + 1);
    }
  }

  /** When every attempt from draw `k` on hits a used cell, the loop gives up after exactly 100 attempts. */
  lemma {:induction false} AllCollisions(rand: RandomSource, k: nat, used: set<Cell>, attempts: nat)
    requires ValidSource(rand)
    requires attempts < MaxAttempts
    requires forall j: nat :: j >= k && (j - k) % 2 == 0 ==> DrawnCell(rand, j) in used
    ensures Attempt(rand, k, used, attempts) == Draw(None, k + 2 * (MaxAttempts - attempts))
    decreases MaxAttempts - attempts
  {
    if attempts + 1 < MaxAttempts {
      AllCollisions(rand, k + 2, used, attempts + 1);
    }
  }

  /** From draw `k` on, every attempt picks cell (0, 1). */
  ghost predicate StuckAt(rand: RandomSource, k: nat)
    requires ValidSource(rand)
  {
    forall j: nat :: j >= k && (j - k) % 2 == 0 ==> DrawnCell(rand, j) == Cell(0, 1)
  }

  /** Column draws pick 1 and row draws pick 0. */
  function StuckSource(): (rand: RandomSource)
    ensures ValidSource(rand)
  {
    (k: nat, n: nat) => if k % 2 == 0 && n > 1 then 1 else 0
  }

  /** `StuckSource` picks cell (0, 1) from every even draw index. */
  lemma StuckSourceIsStuck(k: nat)
    requires k % 2 == 0
    ensures StuckAt(StuckSource(), k)
  {
    var rand := StuckSource();
    forall j: nat | j >= k && (j - k) % 2 == 0
      ensures DrawnCell(rand, j) == Cell(0, 1)
    {
      assert rand(j, AreaCols) == 1;
      assert rand(j + 1, AreaRows) == 0;
    }
  }

  /** A stuck source stays stuck two draws later. */
  lemma StuckLater(rand: RandomSource, k: nat)
    requires ValidSource(rand)
    requires StuckAt(rand, k)
    ensures StuckAt(rand, k + 2)
  {
    forall j: nat | j >= k + 2 && (j - (k + 2)) % 2 == 0
      ensures DrawnCell(rand, j) == Cell(0, 1)
    {
      assert (j - k) % 2 == 0;
    }
  }

  /** The first slot from die `i` on is die `i`'s own turn; the rest continue from its state. */
  lemma GenerateFromHead(rand: RandomSource, i: nat, k: nat, used: set<Cell>)
    requires ValidSource(rand)
    requires i < DiceCount
    ensures var s := PlaceDie(rand, i, k, used);
      && GenerateFrom(rand, i, k, used).slots[0] == s.slot
      && GenerateFrom(rand, i, k, used).slots[1..] == GenerateFrom(rand, i + 1, s.next, Record(used, s.slot)).slots
  {
  }

  /** From a stuck source, die 1 takes cell (0, 1) with its first attempt. */
  lemma StuckFirstDie(rand: RandomSource, k: nat)
    requires ValidSource(rand)
    requires StuckAt(rand, k)
    ensures PlaceDie(rand, 0, k, {}) == Step(Slot(Cell(0, 1), true), k + 2)
  {
    assert DrawnCell(rand, k) == Cell(0, 1);
    assert Attempt(rand, k, {}, 0) == Draw(Some(Cell(0, 1)), k + 2);
  }

  /** From a stuck source, once (0, 1) is used, die 2 gives up and takes its fallback cell. */
  lemma StuckSecondDie(rand: RandomSource, k: nat)
    requires ValidSource(rand)
    requires StuckAt(rand, k)
    ensures PlaceDie(rand, 1, k, {Cell(0, 1)}).slot == Slot(FallbackCell(1), false)
  {
    AllCollisions(rand, k, {Cell(0, 1)}, 0);
  }

  /**
   * The generated cells need not be distinct: when every attempt picks cell
   * (0, 1), die 1 takes it, every attempt for die 2 collides with it, and die
   * 2's fallback cell is (0, 1) again. `StuckSource` is such a source.
   */
  lemma FallbackMayCollide(rand: RandomSource, k: nat)
    requires ValidSource(rand)
    requires StuckAt(rand, k)
    ensures var slots := GeneratePositions(rand, k).slots;
      |slots| == DiceCount && slots[0].cell == slots[1].cell == Cell(0, 1)
  {
    var c := Cell(0, 1);
    StuckFirstDie(rand, k);
    StuckLater(rand, k);
    StuckSecondDie(rand, k + 2);
    assert Record({}, Slot(c, true)) == {c};
    GenerateFromHead(rand, 0, k, {});
    GenerateFromHead(rand, 1, k + 2, {c});
    var slots := GeneratePositions(rand, k).slots;
    assert slots[1] == slots[1..][0];
  }
}

=== FILE: runs.dfy ===
/**
 * Run extraction along one row or one column of the grid, the inner loop of
 * `checkForWords`: walk the cells in order, append each occupied cell's
 * letter to the current run, and close the run at an empty cell or at the end
 * of the line.
 */
module Runs {
  import opened Basics

  /** One row or column of the grid: a letter where a die sits, None where the cell is empty. */
  type Line = seq<Option<char>>

  /** A closed run: the index of its first cell and its letters. */
  datatype Run = Run(start: nat, text: string) {
    function End(): nat { start + |text| }
  }

  /** The letters of cells `s` to `e - 1`, all of which are occupied. */
  function RunText(line: Line, s: nat, e: nat): (t: string)
    requires s <= e <= |line|
    requires forall i :: s <= i < e ==> line[i].Some?
    ensures |t| == e - s
    ensures forall i :: s <= i < e ==> t[i - s] == line[i].value
  {
    seq(e - s, j requires 0 <= j < e - s => line[s + j].value)
  }

  /**
   * Cells `s` to `e - 1` form a maximal run: non-empty, all occupied, and
   * bounded on each side by an empty cell or the end of the line.
   */
  ghost predicate IsMaximalRun(line: Line, s: nat, e: nat) {
    && s < e <= |line|
    && (forall i :: s <= i < e ==> line[i].Some?)
    && (s == 0 || line[s - 1].None?)
    && (e == |line| || line[e].None?)
  }

  /** The run `r` is a maximal run of `line` and carries that run's letters. */
  ghost predicate RunOf(line: Line, r: Run) {
    IsMaximalRun(line, r.start, r.End()) && r.text == RunText(line, r.start, r.End())
  }

  /** The run closed at index `i` with letters `text`, if `text` is non-empty. */
  function Close(i: nat, text: string): seq<Run>
    requires |text| <= i
  {
    if |text| == 0 then [] else [Run(i - |text|, text)]
  }

  /**
   * The walk from index `i`, with `text` the letters of the run still open
   * (the occupied cells just before `i`): every run closed from here on.
   */
  function RunsFrom(line: Line, i: nat, text: string): seq<Run>
    requires |text| <= i <= |line|
    decreases |line| - i
  {
    if i == |line| then Close(i, text)
    else match line[i]
      case Some(c) => RunsFrom(line, i + 1, text + [c])
      case None => Close(i, text) + RunsFrom(line, i + 1, "")
  }

  /** The runs of a whole line, left to right. */
  function LineRuns(line: Line): seq<Run> {
    RunsFrom(line, 0, "")
  }

  /**
   * The state of the walk at index `i`: `text` holds the letters of the
   * occupied cells just before `i`, and the cell before those is empty or
   * absent.
   */
  ghost predicate OpenRun(line: Line, i: nat, text: string) {
    && |text| <= i <= |line|
    && (forall j :: i - |text| <= j < i ==> line[j].Some? && line[j].value == text[j - (i - |text|)])
    && (i - |text| == 0 || line[i - |text| - 1].None?)
  }

  /** Every run the walk closes is a maximal run of the line, starting no earlier than the open run. */
  lemma {:induction false} RunsFromSound(line: Line, i: nat, text: string)
    requires OpenRun(line, i, text)
    ensures forall r :: r in RunsFrom(line, i, text) ==> RunOf(line, r) && r.start >= i - |text|
    decreases |line| - i
  {
    if i == |line| {
      CloseSound(line, i, text);
    } else {
      match line[i]
      case Some(c) =>
        RunsFromSound(line, i + 1, text + [c]);
      case None =>
        RunsFromSound(line, i + 1, "");
        CloseSound(line, i, text);
        var rest := RunsFrom(line, i + 1, "");
        assert RunsFrom(line, i, text) == Close(i, text) + rest;
        forall r | r in RunsFrom(line, i, text)
          ensures RunOf(line, r) && r.start >= i - |text|
        {
          if r !in Close(i, text) {
            assert r in rest;
          }
        }
    }
  }

  /** The run the walk closes at an empty cell or at the end of the line is a maximal run. */
  lemma CloseSound(line: Line, i: nat, text: string)
    requires OpenRun(line, i, text)
    requires i == |line| || line[i].None?
    ensures forall r :: r in Close(i, text) ==> RunOf(line, r) && r.start == i - |text|
  {
    if |text| > 0 {
      assert RunText(line, i - |text|, i) == text;
    }
  }

  /**
   * Every maximal run that does not end before `i`, and does not start before
   * the open run, is closed by the walk.
   */
  lemma {:induction false} RunsFromComplete(line: Line, i: nat, text: string, s: nat, e: nat)
    requires OpenRun(line, i, text)
    requires IsMaximalRun(line, s, e)
    requires i - |text| <= s && i <= e
    ensures Run(s, RunText(line, s, e)) in RunsFrom(line, i, text)
    decreases |line| - i
  {
    if i == |line| {
      assert s == i - |text|;
      assert RunText(line, s, e) == text;
    } else {
      match line[i]
      case Some(c) =>
        RunsFromComplete(line, i + 1, text + [c], s, e);
      case None =>
        if s >= i + 1 {
          RunsFromComplete(line, i + 1, "", s, e);
        } else {
          assert e == i;
          assert s == i - |text|;
          assert RunText(line, s, e) == text;
        }
    }
  }

  /** The runs of a line are exactly its maximal runs. */
  lemma LineRunsIff(line: Line)
    ensures forall r :: r in LineRuns(line) ==> RunOf(line, r)
    ensures forall s: nat, e: nat :: IsMaximalRun(line, s, e) ==> Run(s, RunText(line, s, e)) in LineRuns(line)
  {
    RunsFromSound(line, 0, "");
    forall s: nat, e: nat | IsMaximalRun(line, s, e)
      ensures Run(s, RunText(line, s, e)) in LineRuns(line)
    {
      RunsFromComplete(line, 0, "", s, e);
    }
  }

  /** Runs come left to right, each ending before the next begins. */
  predicate Ordered(rs: seq<Run>) {
    forall a, b :: 0 <= a < b < |rs| ==> rs[a].End() < rs[b].start
  }

  /** Every run the walk closes lies between the open run's first cell and the end of the line. */
  lemma {:induction false} RunsFromBounds(line: Line, i: nat, text: string)
    requires |text| <= i <= |line|
    ensures forall r :: r in RunsFrom(line, i, text) ==> i - |text| <= r.start && r.End() <= |line|
    decreases |line| - i
  {
    if i < |line| {
      match line[i]
      case Some(c) =>
        RunsFromBounds(line, i + 1, text + [c]);
      case None =>
        RunsFromBounds(line, i + 1, "");
    }
  }

  /** Runs that all end before `rest` begins can be put in front of it. */
  lemma OrderedAppend(first: seq<Run>, rest: seq<Run>, bound: int)
    requires Ordered(first) && Ordered(rest)
    requires forall r :: r in first ==> r.End() < bound
    requires forall r :: r in rest ==> bound <= r.start
    ensures Ordered(first + rest)
  {
    var rs := first + rest;
    forall a, b | 0 <= a < b < |rs|
      ensures rs[a].End() < rs[b].start
    {
      if b >= |first| {
        assert rs[b] == rest[b - |first|];
        assert rs[b] in rest;
        if a < |first| {
          assert rs[a] in first;
        } else {
          assert rs[a] == rest[a - |first|];
        }
      }
    }
  }

  /** The walk closes runs left to right, each ending before the next begins. */
  lemma {:induction false} RunsFromOrdered(line: Line, i: nat, text: string)
    requires |text| <= i <= |line|
    ensures Ordered(RunsFrom(line, i, text))
    decreases |line| - i
  {
    if i < |line| {
      match line[i]
      case Some(c) =>
        RunsFromOrdered(line, i + 1, text + [c]);
      case None =>
        RunsFromOrdered(line, i + 1, "");
        RunsFromBounds(line, i + 1, "");
        OrderedAppend(Close(i, text), RunsFrom(line, i + 1, ""), i + 1);
    }
  }

  /** The runs of a line come left to right and do not touch. */
  lemma LineRunsOrdered(line: Line)
    ensures Ordered(LineRuns(line))
  {
    RunsFromOrdered(line, 0, "");
  }
}

=== FILE: scanner.dfy ===
/**
 * The first half of `checkForWords`: lay the dice on a board
 * (a later die overwrites an earlier one on the same cell), read every row
 * left to right and then every column top to bottom, and keep each maximal
 * run of at least three letters whose lower-case form is in the dictionary,
 * upper-cased. The same walk, keeping cells instead of words, gives the cells
 * the completion test counts.
 */
module Scanner {
  import opened Basics
  import opened Letters
  import opened Grid
  import opened Dice
  import opened Runs

  /** The letter on each occupied cell. */
  type Board = map<Cell, char>

  /**
   * `grid[key] = die.currentLetter` for each die in order: a cell is occupied
   * exactly when some die's grid cell is that cell.
   */
  function Occupancy(dice: seq<Die>): (b: Board)
    ensures b.Keys == set i | 0 <= i < |dice| :: dice[i].gridPosition
    decreases |dice|
  {
    if |dice| == 0 then map[]
    else
      var last := dice[|dice| - 1];
      Occupancy(dice[..|dice| - 1])[last.gridPosition := last.currentLetter]
  }

  /** A cell shows the letter of the last die whose grid cell it is. */
  lemma {:induction false} OccupancyLast(dice: seq<Die>, i: int)
    requires 0 <= i < |dice|
    requires forall j :: i < j < |dice| ==> dice[j].gridPosition != dice[i].gridPosition
    ensures Occupancy(dice)[dice[i].gridPosition] == dice[i].currentLetter
    decreases |dice|
  {
    if i < |dice| - 1 {
      var front := dice[..|dice| - 1];
      assert front[i] == dice[i];
      OccupancyLast(front, i);
    }
  }

  /** The two passes of the scan. */
  datatype Axis = Horizontal | Vertical

  /** How many lines a pass reads: 10 rows or 13 columns. */
  function LineCount(axis: Axis): int {
    if axis == Horizontal then Rows else Cols
  }

  /** How many cells each line of a pass has: 13 per row, 10 per column. */
  function LineLength(axis: Axis): int {
    if axis == Horizontal then Cols else Rows
  }

  /** Cell `j` of line `k`: column `j` of row `k`, or row `j` of column `k`. */
  function At(axis: Axis, k: int, j: int): Cell {
    if axis == Horizontal then Cell(k, j) else Cell(j, k)
  }

  /** Every cell of every line of a pass is a grid cell. */
  lemma AtInGrid(axis: Axis, k: int, j: int)
    requires 0 <= k < LineCount(axis) && 0 <= j < LineLength(axis)
    ensures InGrid(At(axis, k, j))
  {
  }

  /** Line `k` of a pass, read off the board. */
  function LineOf(board: Board, axis: Axis, k: int): (line: Line)
    ensures |line| == LineLength(axis)
    ensures forall j :: 0 <= j < |line| ==> (line[j].Some? <==> At(axis, k, j) in board)
    ensures forall j :: 0 <= j < |line| && line[j].Some? ==> line[j].value == board[At(axis, k, j)]
  {
    seq(LineLength(axis), j requires 0 <= j < LineLength(axis) =>
      if At(axis, k, j) in board then Some(board[At(axis, k, j)]) else None)
  }

  /** A run the scan keeps: at least three letters, and a dictionary word. */
  predicate Accepted(dict: set<string>, text: string) {
    |text| >= 3 && IsValidWord(dict, text)
  }

  /** The runs the scan keeps, in order. */
  function AcceptedRuns(dict: set<string>, rs: seq<Run>): (acc: seq<Run>)
    ensures forall r :: r in acc <==> r in rs && Accepted(dict, r.text)
    decreases |rs|
  {
    if |rs| == 0 then []
    else if Accepted(dict, rs[0].text) then [rs[0]] + AcceptedRuns(dict, rs[1..])
    else AcceptedRuns(dict, rs[1..])
  }

  /** `word.toUpperCase()` for each run. */
  function Words(rs: seq<Run>): (ws: seq<string>)
    ensures |ws| == |rs|
    ensures forall i :: 0 <= i < |rs| ==> ws[i] == Upper(rs[i].text)
  {
    seq(|rs|, i requires 0 <= i < |rs| => Upper(rs[i].text))
  }

  /** The words line `k` of a pass contributes. */
  function LineWords(board: Board, dict: set<string>, axis: Axis, k: int): seq<string> {
    Words(AcceptedRuns(dict, LineRuns(LineOf(board, axis, k))))
  }

  /** The words of each line of a pass, line by line. */
  function AxisLines(board: Board, dict: set<string>, axis: Axis): (lines: seq<seq<string>>)
    ensures |lines| == LineCount(axis)
    ensures forall k :: 0 <= k < LineCount(axis) ==> lines[k] == LineWords(board, dict, axis, k)
  {
    seq(LineCount(axis), k requires 0 <= k < LineCount(axis) => LineWords(board, dict, axis, k))
  }

  /** The words of a pass, line by line. */
  function AxisWords(board: Board, dict: set<string>, axis: Axis): seq<string> {
    Flatten(AxisLines(board, dict, axis))
  }

  /** `foundWordsList`: every row word, then every column word. */
  function ScanWords(board: Board, dict: set<string>): seq<string> {
    AxisWords(board, dict, Horizontal) + AxisWords(board, dict, Vertical)
  }

  /** Cells `s` to `e - 1` of line `k` of a pass are a maximal run the scan keeps. */
  ghost predicate AcceptedRunAt(board: Board, dict: set<string>, axis: Axis, k: int, s: nat, e: nat) {
    && 0 <= k < LineCount(axis)
    && IsMaximalRun(LineOf(board, axis, k), s, e)
    && Accepted(dict, RunText(LineOf(board, axis, k), s, e))
  }

  /** `w` is the upper-cased letters of a maximal run the scan keeps somewhere in a pass. */
  ghost predicate WordOf(board: Board, dict: set<string>, axis: Axis, w: string) {
    exists k: int, s: nat, e: nat ::
      AcceptedRunAt(board, dict, axis, k, s, e) && w == Upper(RunText(LineOf(board, axis, k), s, e))
  }

  /** The words of a list of runs are the upper-cased texts of its members. */
  lemma WordsMember(rs: seq<Run>, w: string)
    ensures w in Words(rs) <==> exists r :: r in rs && w == Upper(r.text)
  {
    var ws := Words(rs);
    if w in ws {
      var i :| 0 <= i < |ws| && ws[i] == w;
      assert rs[i] in rs;
    }
    if exists r :: r in rs && w == Upper(r.text) {
      var r :| r in rs && w == Upper(r.text);
      var i :| 0 <= i < |rs| && rs[i] == r;
      assert ws[i] == w;
    }
  }

  /** A line contributes exactly the upper-cased letters of its maximal runs the scan keeps. */
  lemma LineWordsIff(board: Board, dict: set<string>, axis: Axis, k: int, w: string)
    requires 0 <= k < LineCount(axis)
    ensures w in LineWords(board, dict, axis, k) <==>
      exists s: nat, e: nat :: AcceptedRunAt(board, dict, axis, k, s, e) && w == Upper(RunText(LineOf(board, axis, k), s, e))
  {
    var line := LineOf(board, axis, k);
    var acc := AcceptedRuns(dict, LineRuns(line));
    LineRunsIff(line);
    WordsMember(acc, w);
    if w in LineWords(board, dict, axis, k) {
      var r :| r in acc && w == Upper(r.text);
      assert RunOf(line, r);
      assert AcceptedRunAt(board, dict, axis, k, r.start, r.End());
    }
    if exists s: nat, e: nat :: AcceptedRunAt(board, dict, axis, k, s, e) && w == Upper(RunText(line, s, e)) {
      var s: nat, e: nat :| AcceptedRunAt(board, dict, axis, k, s, e) && w == Upper(RunText(line, s, e));
      var r := Run(s, RunText(line, s, e));
      assert r in LineRuns(line);
      assert r in acc;
    }
  }

  /** A pass yields exactly the upper-cased maximal runs it keeps. */
  lemma AxisWordsIff(board: Board, dict: set<string>, axis: Axis, w: string)
    ensures w in AxisWords(board, dict, axis) <==> WordOf(board, dict, axis, w)
  {
    var lines := AxisLines(board, dict, axis);
    FlattenMember(lines, w);
    if w in AxisWords(board, dict, axis) {
      var k :| 0 <= k < |lines| && w in lines[k];
      LineWordsIff(board, dict, axis, k, w);
    }
    if WordOf(board, dict, axis, w) {
      var k: int, s: nat, e: nat :|
        AcceptedRunAt(board, dict, axis, k, s, e) && w == Upper(RunText(LineOf(board, axis, k), s, e));
      LineWordsIff(board, dict, axis, k, w);
      assert w in lines[k];
    }
  }

  /** The scan's word list holds exactly the upper-cased maximal row and column runs it keeps. */
  lemma ScanWordsIff(board: Board, dict: set<string>, w: string)
    ensures w in ScanWords(board, dict) <==> WordOf(board, dict, Horizontal, w) || WordOf(board, dict, Vertical, w)
  {
    AxisWordsIff(board, dict, Horizontal, w);
    AxisWordsIff(board, dict, Vertical, w);
  }

  /** Every row word comes before every column word. */
  lemma RowWordsFirst(board: Board, dict: set<string>, i: int)
    requires 0 <= i < |ScanWords(board, dict)|
    ensures i < |AxisWords(board, dict, Horizontal)| ==> WordOf(board, dict, Horizontal, ScanWords(board, dict)[i])
    ensures i >= |AxisWords(board, dict, Horizontal)| ==> WordOf(board, dict, Vertical, ScanWords(board, dict)[i])
  {
    var rows := AxisWords(board, dict, Horizontal);
    var cols := AxisWords(board, dict, Vertical);
    var w := ScanWords(board, dict)[i];
    if i < |rows| {
      assert w == rows[i];
      AxisWordsIff(board, dict, Horizontal, w);
    } else {
      assert w == cols[i - |rows|];
      AxisWordsIff(board, dict, Vertical, w);
    }
  }

  /** A word kept both in a row and in a column appears in the list at least twice. */
  lemma BothDirectionsTwice(board: Board, dict: set<string>, w: string)
    requires WordOf(board, dict, Horizontal, w) && WordOf(board, dict, Vertical, w)
    ensures multiset(ScanWords(board, dict))[w] >= 2
  {
    AxisWordsIff(board, dict, Horizontal, w);
    AxisWordsIff(board, dict, Vertical, w);
  }

  /**
   * When every dictionary entry passes the word-file filter, every scanned
   * word is 3 to 12 upper-case letters.
   */
  lemma ScanWordsWellFormed(board: Board, dict: set<string>, w: string)
    requires forall d :: d in dict ==> DictionaryWord(d)
    requires w in ScanWords(board, dict)
    ensures 3 <= |w| <= 12
    ensures forall i :: 0 <= i < |w| ==> IsUpperLetter(w[i])
  {
    ScanWordsIff(board, dict, w);
    var axis := if WordOf(board, dict, Horizontal, w) then Horizontal else Vertical;
    var k: int, s: nat, e: nat :|
      AcceptedRunAt(board, dict, axis, k, s, e) && w == Upper(RunText(LineOf(board, axis, k), s, e));
    UpperOfDictionaryWord(RunText(LineOf(board, axis, k), s, e));
  }

  /** The cells of the runs line `k` of a pass keeps: `wordPositions` of each accepted run. */
  function LineCells(board: Board, dict: set<string>, axis: Axis, k: int): set<Cell> {
    set r, j | r in AcceptedRuns(dict, LineRuns(LineOf(board, axis, k))) && r.start <= j < r.End() :: At(axis, k, j)
  }

  /** The cells of the runs a whole pass keeps. */
  function AxisCells(board: Board, dict: set<string>, axis: Axis): set<Cell> {
    set k, c | 0 <= k < LineCount(axis) && c in LineCells(board, dict, axis, k) :: c
  }

  /** `diceInWords`: every cell of every row or column run the scan keeps. */
  function UsedCells(board: Board, dict: set<string>): set<Cell> {
    AxisCells(board, dict, Horizontal) + AxisCells(board, dict, Vertical)
  }

  /** Cell `j` of line `k` lies in a maximal run the scan keeps. */
  ghost predicate InAcceptedRun(board: Board, dict: set<string>, axis: Axis, k: int, j: int) {
    exists s: nat, e: nat :: AcceptedRunAt(board, dict, axis, k, s, e) && s <= j < e
  }

  /** A line's kept cells are exactly the cells of its maximal runs the scan keeps. */
  lemma LineCellsIff(board: Board, dict: set<string>, axis: Axis, k: int, j: int)
    requires 0 <= k < LineCount(axis)
    ensures At(axis, k, j) in LineCells(board, dict, axis, k) <==> InAcceptedRun(board, dict, axis, k, j)
  {
    var line := LineOf(board, axis, k);
    var acc := AcceptedRuns(dict, LineRuns(line));
    LineRunsIff(line);
    if At(axis, k, j) in LineCells(board, dict, axis, k) {
      var r, j' :| r in acc && r.start <= j' < r.End() && At(axis, k, j) == At(axis, k, j');
      assert j == j';
      assert RunOf(line, r);
      assert AcceptedRunAt(board, dict, axis, k, r.start, r.End());
    }
    if InAcceptedRun(board, dict, axis, k, j) {
      var s: nat, e: nat :| AcceptedRunAt(board, dict, axis, k, s, e) && s <= j < e;
      var r := Run(s, RunText(line, s, e));
      assert r in LineRuns(line);
      assert r in acc;
    }
  }

  /**
   * A cell is used exactly when it lies in a maximal row run or a maximal
   * column run the scan keeps, the same runs whose words the scan lists.
   */
  lemma UsedCellsIff(board: Board, dict: set<string>, c: Cell)
    ensures c in UsedCells(board, dict) <==>
      InAcceptedRun(board, dict, Horizontal, c.row, c.col) || InAcceptedRun(board, dict, Vertical, c.col, c.row)
  {
    RowCellsIff(board, dict, c);
    ColumnCellsIff(board, dict, c);
  }

  /** A cell is kept by the row pass exactly when it lies in a kept maximal run of its row. */
  lemma RowCellsIff(board: Board, dict: set<string>, c: Cell)
    ensures c in AxisCells(board, dict, Horizontal) <==> InAcceptedRun(board, dict, Horizontal, c.row, c.col)
  {
    if 0 <= c.row < Rows {
      LineCellsIff(board, dict, Horizontal, c.row, c.col);
    }
    if c in AxisCells(board, dict, Horizontal) {
      var k :| 0 <= k < Rows && c in LineCells(board, dict, Horizontal, k);
      assert k == c.row;
    }
  }

  /** A cell is kept by the column pass exactly when it lies in a kept maximal run of its column. */
  lemma ColumnCellsIff(board: Board, dict: set<string>, c: Cell)
    ensures c in AxisCells(board, dict, Vertical) <==> InAcceptedRun(board, dict, Vertical, c.col, c.row)
  {
    if 0 <= c.col < Cols {
      LineCellsIff(board, dict, Vertical, c.col, c.row);
    }
    if c in AxisCells(board, dict, Vertical) {
      var k :| 0 <= k < Cols && c in LineCells(board, dict, Vertical, k);
      assert k == c.col;
    }
  }

  /** The kept run a used cell lies in. */
  lemma UsedCellRun(board: Board, dict: set<string>, c: Cell) returns (axis: Axis, k: int, j: int, s: nat, e: nat)
    requires c in UsedCells(board, dict)
    ensures AcceptedRunAt(board, dict, axis, k, s, e) && s <= j < e && At(axis, k, j) == c
  {
    UsedCellsIff(board, dict, c);
    if InAcceptedRun(board, dict, Horizontal, c.row, c.col) {
      axis, k, j := Horizontal, c.row, c.col;
    } else {
      axis, k, j := Vertical, c.col, c.row;
    }
    s, e :| AcceptedRunAt(board, dict, axis, k, s, e) && s <= j < e;
  }

  /** Only occupied grid cells are used. */
  lemma UsedCellsOccupied(board: Board, dict: set<string>, c: Cell)
    requires c in UsedCells(board, dict)
    ensures c in board && InGrid(c)
  {
    var axis, k, j, s, e := UsedCellRun(board, dict, c);
    assert LineOf(board, axis, k)[j].Some?;
  }

  /** A used cell lies in a kept run, so the scan lists at least one word whenever some cell is used. */
  lemma UsedCellsHaveWords(board: Board, dict: set<string>, c: Cell)
    requires c in UsedCells(board, dict)
    ensures |ScanWords(board, dict)| > 0
  {
    var axis, k, j, s, e := UsedCellRun(board, dict, c);
    var w := Upper(RunText(LineOf(board, axis, k), s, e));
    assert WordOf(board, dict, axis, w);
    ScanWordsIff(board, dict, w);
  }
}

=== FILE: store.dfy ===
/**
 * The session store: the dice, the selection, the word-tracking state and the
 * puzzle state, with the actions the board calls. Every action is a function
 * from the old state to the new one. Random draws come from a `RandomSource`,
 * the clock is a `now` parameter, and the outcome of fetching the word file
 * is an `Option<string>`.
 */
module Store {
  import opened Basics
  import opened Letters
  import opened Grid
  import opened Dice
  import opened Placement
  import opened Scanner
  import opened Discovery
  import opened Completion

  /**
   * The store's state. `selectedDice` holds the ids of the selected dice, in
   * the order they were selected.
   */
  datatype GameState = GameState(
    dice: seq<Die>,
    selectedDice: seq<int>,
    selectionBox: SelectionBox,
    foundWords: seq<FoundWord>,
    validWords: set<string>,
    wordsLoaded: bool,
    discoveredWords: set<string>,
    puzzleState: PuzzleState)

  /** The state before anything has run: no dice, no dictionary. */
  const EmptyState: GameState := GameState(
    [], [], SelectionBox(0, 0, 0, 0, false), [], {}, false, {}, InitialPuzzle)

  /**
   * The invariant the actions keep: twelve dice with ids 1 to 12 and their
   * configured faces, each showing one of its faces on a grid cell; no id
   * selected twice and a die flagged selected exactly when its id is
   * selected; every announced or winning word discovered.
   */
  ghost predicate WellFormed(g: GameState) {
    && |g.dice| == DiceCount
    && (forall i :: 0 <= i < |g.dice| ==> DieWellFormed(g.dice[i], i))
    && NoDuplicates(g.selectedDice)
    && (forall id :: id in g.selectedDice ==> 1 <= id <= DiceCount)
    && (forall i :: 0 <= i < |g.dice| ==> (g.dice[i].isSelected <==> g.dice[i].id in g.selectedDice))
    && (forall fw :: fw in g.foundWords ==> fw.word in g.discoveredWords)
    && (forall w :: w in g.puzzleState.allWords ==> w in g.discoveredWords)
  }

  /** Die `i` (from 0) has id `i + 1`, its configured faces, one of them showing, and a grid cell. */
  ghost predicate DieWellFormed(d: Die, i: int) {
    && 0 <= i < |Faces|
    && d.id == i + 1
    && d.letters == Faces[i]
    && d.currentLetter in d.letters
    && InGrid(d.gridPosition)
  }

  // ---------------------------------------------------------------------------
  // Dictionary

  /**
   * `loadWords`: the word file's text when it could be fetched, or None when
   * the fetch failed and the fallback list is used. Either way the dictionary
   * is marked loaded.
   */
  function LoadWords(g: GameState, file: Option<string>): (r: GameState)
    ensures r.wordsLoaded
    ensures forall w :: w in r.validWords ==> DictionaryWord(w)
    ensures file.None? ==> r.validWords == FallbackWords
    ensures file.Some? ==> forall line :: line in Split(file.value, '\n') && DictionaryWord(Normalize(line)) ==>
              Normalize(line) in r.validWords
    ensures file.Some? ==> forall w :: w in r.validWords ==>
              exists line :: line in Split(file.value, '\n') && Normalize(line) == w
    ensures r == g.(validWords := r.validWords, wordsLoaded := true)
  {
    FallbackWordsWellFormed();
    match file
    case None => g.(validWords := FallbackWords, wordsLoaded := true)
    case Some(text) => g.(validWords := ParseWordList(text), wordsLoaded := true)
  }

  // ---------------------------------------------------------------------------
  // Word scanning, discovery and completion

  /**
   * `checkForWords` at time `now`. Without a dictionary nothing changes.
   * Otherwise the scanned words join the discovered set, the new ones are
   * announced, stale announcements are dropped, and the puzzle is judged.
   */
  function CheckForWords(g: GameState, now: int): (r: GameState)
    ensures !g.wordsLoaded ==> r == g
    ensures r == g.(foundWords := r.foundWords, discoveredWords := r.discoveredWords, puzzleState := r.puzzleState)
    ensures g.wordsLoaded ==> r.discoveredWords == g.discoveredWords + Elements(ScanWords(Occupancy(g.dice), g.validWords))
    ensures g.wordsLoaded ==> forall fw :: fw in r.foundWords ==> Fresh(fw, now)
    ensures g.wordsLoaded ==> forall fw :: fw in r.foundWords && fw !in g.foundWords ==>
              && fw.timestamp == now && fw.isNew
              && fw.word in ScanWords(Occupancy(g.dice), g.validWords) && fw.word !in g.discoveredWords
    ensures g.wordsLoaded ==> forall fw :: fw in g.foundWords && Fresh(fw, now) ==> fw in r.foundWords
    ensures g.wordsLoaded ==> forall w :: w in ScanWords(Occupancy(g.dice), g.validWords) && w !in g.discoveredWords ==>
              FoundWord(w, now, true) in r.foundWords
    ensures g.wordsLoaded ==> (r.puzzleState.isComplete <==>
              Wins(UsedCells(Occupancy(g.dice), g.validWords), ScanWords(Occupancy(g.dice), g.validWords)))
    ensures g.wordsLoaded && r.puzzleState.isComplete ==>
              r.puzzleState.allWords == ScanWords(Occupancy(g.dice), g.validWords) && r.puzzleState.completionTime == now
    ensures !r.puzzleState.isComplete ==> r.puzzleState == g.puzzleState.(isComplete := false)
  {
    if !g.wordsLoaded then g
    else
      var board := Occupancy(g.dice);
      var words := ScanWords(board, g.validWords);
      var announced := Announce(words, g.discoveredWords, now);
      AnnouncedWords(words, g.discoveredWords, now);
      assert Elements(words) == set w | w in words;
      g.(foundWords := Expire(g.foundWords + announced.found, now),
         discoveredWords := announced.discovered,
         puzzleState := Judge(g.puzzleState, UsedCells(board, g.validWords), words, now))
  }

  /**
   * The announcement list after a scan: the still-fresh old announcements in
   * their order, followed by exactly one new announcement per newly discovered
   * word, in scan order (`Discovery.AnnounceOnce` rules out repeats).
   */
  lemma CheckForWordsFound(g: GameState, now: int)
    requires g.wordsLoaded
    ensures CheckForWords(g, now).foundWords ==
      Expire(g.foundWords, now) + Announce(ScanWords(Occupancy(g.dice), g.validWords), g.discoveredWords, now).found
  {
    var found := Announce(ScanWords(Occupancy(g.dice), g.validWords), g.discoveredWords, now).found;
    ExpireAppend(g.foundWords, found, now);
    ExpireAllFresh(found, now);
  }

  /**
   * Scanning again with the dice where they are announces nothing new: the
   * discovered set stays as it is and the announcements only age.
   */
  lemma CheckForWordsAgain(g: GameState, now: int, later: int)
    requires now <= later
    ensures var r := CheckForWords(g, now);
      && CheckForWords(r, later).discoveredWords == r.discoveredWords
      && CheckForWords(r, later).foundWords == (if g.wordsLoaded then Expire(r.foundWords, later) else r.foundWords)
  {
    if g.wordsLoaded {
      var words := ScanWords(Occupancy(g.dice), g.validWords);
      var r := CheckForWords(g, now);
      AnnounceAgain(words, g.discoveredWords, now, later);
      assert r.dice == g.dice && r.validWords == g.validWords && r.wordsLoaded;
      RescanAnnouncesNothing(r, later);
    }
  }

  /** A scan whose words are all discovered already adds nothing and only ages the announcements. */
  lemma RescanAnnouncesNothing(r: GameState, later: int)
    requires r.wordsLoaded
    requires var words := ScanWords(Occupancy(r.dice), r.validWords);
      Announce(words, r.discoveredWords, later) == Announced([], r.discoveredWords)
    ensures CheckForWords(r, later).discoveredWords == r.discoveredWords
    ensures CheckForWords(r, later).foundWords == Expire(r.foundWords, later)
  {
    assert r.foundWords + [] == r.foundWords;
  }

  /**
   * With the dictionary loaded and a well-formed board, the scan completes the
   * puzzle exactly when the twelve dice lie on twelve different cells and
   * every die's cell lies in a kept row or column run.
   */
  lemma CheckForWordsWins(g: GameState, now: int)
    requires WellFormed(g) && g.wordsLoaded
    ensures CheckForWords(g, now).puzzleState.isComplete <==>
      && NoDuplicates(CellsOf(g.dice))
      && forall i :: 0 <= i < |g.dice| ==> CellsOf(g.dice)[i] in UsedCells(Occupancy(g.dice), g.validWords)
  {
    WinsIff(g.dice, g.validWords);
  }

  /** Scanning keeps the invariant. */
  lemma CheckForWordsWellFormed(g: GameState, now: int)
    requires WellFormed(g)
    ensures WellFormed(CheckForWords(g, now))
  {
    if g.wordsLoaded {
      var r := CheckForWords(g, now);
      var words := ScanWords(Occupancy(g.dice), g.validWords);
      forall w | w in r.puzzleState.allWords
        ensures w in r.discoveredWords
      {
        if r.puzzleState.isComplete {
          assert w in Elements(words);
        }
      }
    }
  }

  // ---------------------------------------------------------------------------
  // Dealing the dice

  /** Every die has six faces. */
  lemma FacesShape()
    ensures |Faces| == DiceCount
    ensures forall i :: 0 <= i < |Faces| ==> |Faces[i]| == 6
  {
  }

  /** Die `i` as `initializeDice` creates it: on `cell`, showing face number `face`. */
  function NewDie(i: int, cell: Cell, face: int): (d: Die)
    requires 0 <= i < DiceCount && 0 <= face < 6
    ensures d.id == i + 1 && d.letters == Faces[i] && d.currentLetter in Faces[i]
    ensures d.position == Corner(d.gridPosition) && d.gridPosition == cell
    ensures !d.isDragging && !d.isSelected
  {
    FacesShape();
    Die(i + 1, Faces[i], Faces[i][face], Corner(cell), cell, false, false)
  }

  /** Die `i` dealt onto its generated cell, its face picked by draw `layout.next + i`. */
  function DealtDie(rand: RandomSource, layout: Layout, i: int): (d: Die)
    requires ValidSource(rand)
    requires |layout.slots| == DiceCount && 0 <= i < DiceCount
    ensures d.id == i + 1 && d.letters == Faces[i] && d.currentLetter in Faces[i]
    ensures d.gridPosition == layout.slots[i].cell && d.position == Corner(d.gridPosition)
    ensures !d.isDragging && !d.isSelected
  {
    FacesShape();
    NewDie(i, layout.slots[i].cell, rand(layout.next + i, |Faces[i]|))
  }

  /**
   * `initializeDice` with draws starting at `k`: the placement generator
   * takes the first draws, then one draw per die picks its face. The
   * selection is left as it was.
   */
  function InitializeDice(g: GameState, rand: RandomSource, k: nat): (r: GameState)
    requires ValidSource(rand)
    ensures |r.dice| == DiceCount
    ensures forall i :: 0 <= i < DiceCount ==>
      && r.dice[i].id == i + 1 && r.dice[i].letters == Faces[i] && r.dice[i].currentLetter in Faces[i]
      && r.dice[i].gridPosition == GeneratePositions(rand, k).slots[i].cell
      && r.dice[i].position == Corner(r.dice[i].gridPosition)
      && !r.dice[i].isDragging && !r.dice[i].isSelected
    ensures r == g.(dice := r.dice)
  {
    g.(dice := DealDice(rand, GeneratePositions(rand, k)))
  }

  /** The twelve dice dealt onto the generated cells, in id order. */
  function DealDice(rand: RandomSource, layout: Layout): (dice: seq<Die>)
    requires ValidSource(rand)
    requires |layout.slots| == DiceCount
    ensures |dice| == DiceCount
    ensures forall i :: 0 <= i < DiceCount ==>
      && dice[i].id == i + 1 && dice[i].letters == Faces[i] && dice[i].currentLetter in Faces[i]
      && dice[i].gridPosition == layout.slots[i].cell && dice[i].position == Corner(dice[i].gridPosition)
      && !dice[i].isDragging && !dice[i].isSelected
  {
    seq(DiceCount, i requires 0 <= i < DiceCount => DealtDie(rand, layout, i))
  }

  /** Dealing the dice into the empty state gives a well-formed state. */
  lemma InitializeWellFormed(rand: RandomSource, k: nat)
    requires ValidSource(rand)
    ensures WellFormed(InitializeDice(EmptyState, rand, k))
  {
    DealtDiceWellFormed(rand, GeneratePositions(rand, k));
  }

  /** Dice dealt onto cells of the area are well formed and unselected. */
  lemma DealtDiceWellFormed(rand: RandomSource, layout: Layout)
    requires ValidSource(rand)
    requires |layout.slots| == DiceCount
    requires forall j :: 0 <= j < DiceCount ==> InArea(layout.slots[j].cell)
    ensures var dice := DealDice(rand, layout);
      forall i :: 0 <= i < |dice| ==> DieWellFormed(dice[i], i) && !dice[i].isSelected
  {
    FacesShape();
    var dice := DealDice(rand, layout);
    forall i | 0 <= i < |dice|
      ensures DieWellFormed(dice[i], i)
    {
      assert InArea(layout.slots[i].cell);
    }
  }

  /** Die `die` rolled onto `cell`, showing face number `face`, deselected and not dragged. */
  function RollDie(die: Die, cell: Cell, face: int): (d: Die)
    requires 0 <= face < |die.letters|
    ensures d.currentLetter in die.letters && d.gridPosition == cell && d.position == Corner(cell)
    ensures !d.isSelected && !d.isDragging
    ensures d.id == die.id && d.letters == die.letters
  {
    die.(currentLetter := die.letters[face], position := Corner(cell), gridPosition := cell,
         isSelected := false, isDragging := false)
  }

  /** Die number `i` rolled onto its generated cell, its face picked by draw `layout.next + i`. */
  function RolledDie(rand: RandomSource, layout: Layout, die: Die, i: int): (d: Die)
    requires ValidSource(rand)
    requires 0 <= i < |layout.slots| && |die.letters| > 0
    ensures d.currentLetter in die.letters && d.gridPosition == layout.slots[i].cell && d.position == Corner(d.gridPosition)
    ensures !d.isSelected && !d.isDragging
    ensures d.id == die.id && d.letters == die.letters
  {
    RollDie(die, layout.slots[i].cell, rand(layout.next + i, |die.letters|))
  }

  /**
   * `rollDice` with draws starting at `k`: new cells from the placement
   * generator, then one face draw per die; the selection, the discovered
   * words, the announcements and the puzzle state are all reset. The source
   * reads one generated position per die, so there may be at most twelve.
   */
  function RollDice(g: GameState, rand: RandomSource, k: nat): (r: GameState)
    requires ValidSource(rand)
    requires |g.dice| <= DiceCount
    requires forall i :: 0 <= i < |g.dice| ==> |g.dice[i].letters| > 0
    ensures |r.dice| == |g.dice|
    ensures forall i :: 0 <= i < |g.dice| ==>
      && r.dice[i].id == g.dice[i].id && r.dice[i].letters == g.dice[i].letters
      && r.dice[i].currentLetter in g.dice[i].letters
      && r.dice[i].gridPosition == GeneratePositions(rand, k).slots[i].cell
      && r.dice[i].position == Corner(r.dice[i].gridPosition)
      && !r.dice[i].isSelected && !r.dice[i].isDragging
    ensures r.selectedDice == [] && r.discoveredWords == {} && r.foundWords == []
    ensures r.puzzleState == InitialPuzzle
    ensures r.selectionBox == g.selectionBox && r.validWords == g.validWords && r.wordsLoaded == g.wordsLoaded
  {
    var dice := RollAll(rand, GeneratePositions(rand, k), g.dice);
    g.(dice := dice, selectedDice := [], discoveredWords := {}, foundWords := [], puzzleState := InitialPuzzle)
  }

  /** Every die rolled onto the generated cell of its position in the list. */
  function RollAll(rand: RandomSource, layout: Layout, dice: seq<Die>): (r: seq<Die>)
    requires ValidSource(rand)
    requires |dice| <= |layout.slots|
    requires forall i :: 0 <= i < |dice| ==> |dice[i].letters| > 0
    ensures |r| == |dice|
    ensures forall i :: 0 <= i < |dice| ==>
      && r[i].id == dice[i].id && r[i].letters == dice[i].letters && r[i].currentLetter in dice[i].letters
      && r[i].gridPosition == layout.slots[i].cell && r[i].position == Corner(r[i].gridPosition)
      && !r[i].isSelected && !r[i].isDragging
  {
    seq(|dice|, i requires 0 <= i < |dice| => RolledDie(rand, layout, dice[i], i))
  }

  /** Rolling keeps the invariant. */
  lemma RollWellFormed(g: GameState, rand: RandomSource, k: nat)
    requires ValidSource(rand)
    requires WellFormed(g)
    ensures WellFormed(RollDice(g, rand, k))
  {
    FacesShape();
    forall i | 0 <= i < |g.dice|
      ensures |g.dice[i].letters| > 0
    {
      assert DieWellFormed(g.dice[i], i);
    }
    RollAllWellFormed(rand, GeneratePositions(rand, k), g.dice);
  }

  /** Rolling well-formed dice onto cells of the area keeps each of them well formed and unselects it. */
  lemma RollAllWellFormed(rand: RandomSource, layout: Layout, dice: seq<Die>)
    requires ValidSource(rand)
    requires |dice| == |layout.slots| == DiceCount
    requires forall j :: 0 <= j < DiceCount ==> InArea(layout.slots[j].cell)
    requires forall i :: 0 <= i < |dice| ==> DieWellFormed(dice[i], i) && |dice[i].letters| > 0
    ensures var r := RollAll(rand, layout, dice);
      forall i :: 0 <= i < |r| ==> DieWellFormed(r[i], i) && !r[i].isSelected
  {
    var r := RollAll(rand, layout, dice);
    forall i | 0 <= i < |r|
      ensures DieWellFormed(r[i], i)
    {
      assert DieWellFormed(dice[i], i);
      assert InArea(layout.slots[i].cell);
    }
  }

  // ---------------------------------------------------------------------------
  // Moving one die

  /**
   * `updateDiePosition(id, x, y, shouldSnap)`: the first die with that id
   * moves to (x, y), or to the grid cell nearest it when `shouldSnap`; an
   * unknown id changes nothing.
   */
  function UpdateDiePosition(g: GameState, id: int, x: int, y: int, shouldSnap: bool): (r: GameState)
    ensures FindDie(g.dice, id).None? ==> r == g
    ensures |r.dice| == |g.dice|
    ensures FindDie(g.dice, id).Some? ==>
      var i := FindDie(g.dice, id).value;
      && r == g.(dice := g.dice[i := r.dice[i]])
      && (shouldSnap ==> r.dice[i] == SnapDie(g.dice[i].(position := Point(x, y))))
      && (!shouldSnap ==> r.dice[i] == g.dice[i].(position := Point(x, y)))
  {
    match FindDie(g.dice, id)
    case None => g
    case Some(i) =>
      var moved := g.dice[i].(position := Point(x, y));
      g.(dice := g.dice[i := if shouldSnap then SnapDie(moved) else moved])
  }

  /** A snapping update leaves the die on the cell nearest (x, y), at that cell's corner. */
  lemma UpdateSnapsToNearest(g: GameState, id: int, x: int, y: int)
    requires FindDie(g.dice, id).Some?
    ensures var d := UpdateDiePosition(g, id, x, y, true).dice[FindDie(g.dice, id).value];
      && NearestCell(Point(x, y), d.gridPosition)
      && d.position == Corner(d.gridPosition)
  {
  }

  /** Moving one die keeps the invariant. */
  lemma UpdateWellFormed(g: GameState, id: int, x: int, y: int, shouldSnap: bool)
    requires WellFormed(g)
    ensures WellFormed(UpdateDiePosition(g, id, x, y, shouldSnap))
  {
    var r := UpdateDiePosition(g, id, x, y, shouldSnap);
    forall i | 0 <= i < |r.dice|
      ensures DieWellFormed(r.dice[i], i)
    {
      assert DieWellFormed(g.dice[i], i);
    }
  }

  /**
   * `setDragging(id, isDragging)`: flag the die; when the drag ends, snap the
   * die to the grid and scan at time `now`. An unknown id changes nothing.
   */
  function SetDragging(g: GameState, id: int, isDragging: bool, now: int): (r: GameState)
    ensures FindDie(g.dice, id).None? ==> r == g
    ensures FindDie(g.dice, id).Some? && isDragging ==>
      var i := FindDie(g.dice, id).value;
      r == g.(dice := g.dice[i := g.dice[i].(isDragging := true)])
    ensures FindDie(g.dice, id).Some? && !isDragging ==>
      var i := FindDie(g.dice, id).value;
      r == CheckForWords(g.(dice := g.dice[i := SnapDie(g.dice[i].(isDragging := false))]), now)
  {
    match FindDie(g.dice, id)
    case None => g
    case Some(i) =>
      var flagged := g.dice[i].(isDragging := isDragging);
      if isDragging then g.(dice := g.dice[i := flagged])
      else CheckForWords(g.(dice := g.dice[i := SnapDie(flagged)]), now)
  }

  /** Ending a drag leaves the die on a grid cell, at that cell's corner. */
  lemma DragEndSnaps(g: GameState, id: int, now: int)
    requires FindDie(g.dice, id).Some?
    ensures var d := SetDragging(g, id, false, now).dice[FindDie(g.dice, id).value];
      && !d.isDragging && d.position == Corner(d.gridPosition)
      && NearestCell(g.dice[FindDie(g.dice, id).value].position, d.gridPosition)
  {
  }

  /** Dragging keeps the invariant. */
  lemma SetDraggingWellFormed(g: GameState, id: int, isDragging: bool, now: int)
    requires WellFormed(g)
    ensures WellFormed(SetDragging(g, id, isDragging, now))
  {
    match FindDie(g.dice, id)
    case None =>
    case Some(i) =>
      var flagged := g.dice[i].(isDragging := isDragging);
      var moved := g.(dice := g.dice[i := if isDragging then flagged else SnapDie(flagged)]);
      forall j | 0 <= j < |moved.dice|
        ensures DieWellFormed(moved.dice[j], j)
      {
        assert DieWellFormed(g.dice[j], j);
      }
      assert WellFormed(moved);
      if !isDragging {
        CheckForWordsWellFormed(moved, now);
      }
  }

  // ---------------------------------------------------------------------------
  // Selection

  /** `clearSelection`: no die is selected. */
  function ClearSelection(g: GameState): (r: GameState)
    ensures r.selectedDice == []
    ensures |r.dice| == |g.dice|
    ensures forall i :: 0 <= i < |g.dice| ==> r.dice[i] == g.dice[i].(isSelected := false)
    ensures r == g.(dice := r.dice, selectedDice := [])
  {
    g.(dice := seq(|g.dice|, i requires 0 <= i < |g.dice| => g.dice[i].(isSelected := false)), selectedDice := [])
  }

  /** Clearing the selection keeps the invariant. */
  lemma ClearWellFormed(g: GameState)
    requires WellFormed(g)
    ensures WellFormed(ClearSelection(g))
  {
    var r := ClearSelection(g);
    forall i | 0 <= i < |r.dice|
      ensures DieWellFormed(r.dice[i], i)
    {
      assert DieWellFormed(g.dice[i], i);
    }
  }

  /**
   * `selectDie(id)`: flag the die and add its id to the selection unless it
   * is there already. An unknown id changes nothing.
   */
  function SelectDie(g: GameState, id: int): (r: GameState)
    ensures FindDie(g.dice, id).None? ==> r == g
    ensures FindDie(g.dice, id).Some? ==>
      var i := FindDie(g.dice, id).value;
      && r.dice == g.dice[i := g.dice[i].(isSelected := true)]
      && id in r.selectedDice
      && (id in g.selectedDice ==> r.selectedDice == g.selectedDice)
      && (id !in g.selectedDice ==> r.selectedDice == g.selectedDice + [id])
      && r == g.(dice := r.dice, selectedDice := r.selectedDice)
  {
    match FindDie(g.dice, id)
    case None => g
    case Some(i) =>
      g.(dice := g.dice[i := g.dice[i].(isSelected := true)],
         selectedDice := if id in g.selectedDice then g.selectedDice else g.selectedDice + [id])
  }

  /** Selecting never puts an id into the selection twice. */
  lemma SelectNoDuplicates(g: GameState, id: int)
    requires NoDuplicates(g.selectedDice)
    ensures NoDuplicates(SelectDie(g, id).selectedDice)
  {
    var s := SelectDie(g, id).selectedDice;
    if s != g.selectedDice {
      forall i, j | 0 <= i < j < |s|
        ensures s[i] != s[j]
      {
        if j == |s| - 1 {
          assert s[i] in g.selectedDice;
        }
      }
    }
  }

  /** Selecting keeps the invariant. */
  lemma SelectWellFormed(g: GameState, id: int)
    requires WellFormed(g)
    ensures WellFormed(SelectDie(g, id))
  {
    SelectNoDuplicates(g, id);
    var r := SelectDie(g, id);
    forall i | 0 <= i < |r.dice|
      ensures DieWellFormed(r.dice[i], i)
      ensures r.dice[i].isSelected <==> r.dice[i].id in r.selectedDice
    {
      assert DieWellFormed(g.dice[i], i);
    }
  }

  /**
   * `deselectDie(id)`: clear the die's flag and drop its id from the
   * selection. An unknown id changes nothing.
   */
  function DeselectDie(g: GameState, id: int): (r: GameState)
    ensures FindDie(g.dice, id).None? ==> r == g
    ensures FindDie(g.dice, id).Some? ==>
      var i := FindDie(g.dice, id).value;
      && r.dice == g.dice[i := g.dice[i].(isSelected := false)]
      && id !in r.selectedDice
      && (forall s :: s in r.selectedDice <==> s in g.selectedDice && s != id)
      && r == g.(dice := r.dice, selectedDice := r.selectedDice)
  {
    match FindDie(g.dice, id)
    case None => g
    case Some(i) =>
      g.(dice := g.dice[i := g.dice[i].(isSelected := false)], selectedDice := Without(g.selectedDice, id))
  }

  /** `selection.filter(s => s !== id)`, keeping order. */
  function Without(ids: seq<int>, id: int): (r: seq<int>)
    ensures forall s :: s in r <==> s in ids && s != id
    ensures NoDuplicates(ids) ==> NoDuplicates(r)
    decreases |ids|
  {
    if |ids| == 0 then []
    else if ids[0] == id then Without(ids[1..], id)
    else
      var rest := Without(ids[1..], id);
      assert NoDuplicates(ids) ==> ids[0] !in rest;
      [ids[0]] + rest
  }

  /** Deselecting keeps the invariant. */
  lemma DeselectWellFormed(g: GameState, id: int)
    requires WellFormed(g)
    ensures WellFormed(DeselectDie(g, id))
  {
    var r := DeselectDie(g, id);
    forall i | 0 <= i < |r.dice|
      ensures DieWellFormed(r.dice[i], i)
      ensures r.dice[i].isSelected <==> r.dice[i].id in r.selectedDice
    {
      assert DieWellFormed(g.dice[i], i);
    }
  }

  // ---------------------------------------------------------------------------
  // Moving the selection

  /** What an action does to each selected die. */
  datatype Motion = Shift(offsetX: int, offsetY: int) | Snap

  /** The motion applied to one die. */
  function Apply(m: Motion, d: Die): (r: Die)
    ensures r.id == d.id && r.letters == d.letters && r.currentLetter == d.currentLetter
    ensures r.isDragging == d.isDragging && r.isSelected == d.isSelected
  {
    match m
    case Shift(dx, dy) => MoveBy(d, dx, dy)
    case Snap => SnapDie(d)
  }

  /** The motion applied to the first die with id `id`, if there is one. */
  function ApplyToId(dice: seq<Die>, id: int, m: Motion): (r: seq<Die>)
    ensures |r| == |dice| && Ids(r) == Ids(dice)
    ensures forall i :: 0 <= i < |dice| && dice[i].id != id ==> r[i] == dice[i]
  {
    match FindDie(dice, id)
    case None => dice
    case Some(i) => dice[i := Apply(m, dice[i])]
  }

  /** With distinct ids, the die with id `id` is the one that gets the motion. */
  lemma ApplyToIdHits(dice: seq<Die>, i: int, m: Motion)
    requires NoDuplicates(Ids(dice)) && 0 <= i < |dice|
    ensures ApplyToId(dice, dice[i].id, m)[i] == Apply(m, dice[i])
  {
    var f := FindDie(dice, dice[i].id);
    assert f.Some? && f.value <= i;
    assert Ids(dice)[f.value] == dice[i].id == Ids(dice)[i];
  }

  /** The `selectedDice.forEach` loop: apply the motion to the die with each selected id, in order. */
  function ApplyToSelected(dice: seq<Die>, ids: seq<int>, m: Motion): (r: seq<Die>)
    ensures |r| == |dice|
    ensures forall i :: 0 <= i < |dice| && dice[i].id !in ids ==> r[i] == dice[i]
    ensures forall i :: 0 <= i < |dice| ==>
      && r[i].id == dice[i].id && r[i].letters == dice[i].letters && r[i].currentLetter == dice[i].currentLetter
      && r[i].isDragging == dice[i].isDragging && r[i].isSelected == dice[i].isSelected
    decreases |ids|
  {
    if |ids| == 0 then dice
    else ApplyToSelected(ApplyToId(dice, ids[0], m), ids[1..], m)
  }

  /**
   * With distinct die ids and no id selected twice, each selected die gets
   * the motion exactly once and every other die is left alone.
   */
  lemma {:induction false} ApplyToSelectedExact(dice: seq<Die>, ids: seq<int>, m: Motion)
    requires NoDuplicates(Ids(dice)) && NoDuplicates(ids)
    ensures forall i :: 0 <= i < |dice| ==>
      ApplyToSelected(dice, ids, m)[i] == (if dice[i].id in ids then Apply(m, dice[i]) else dice[i])
    decreases |ids|
  {
    if |ids| > 0 {
      var moved := ApplyToId(dice, ids[0], m);
      assert NoDuplicates(ids[1..]);
      ApplyToSelectedExact(moved, ids[1..], m);
      forall i | 0 <= i < |dice|
        ensures ApplyToSelected(dice, ids, m)[i] == (if dice[i].id in ids then Apply(m, dice[i]) else dice[i])
      {
        assert moved[i].id == Ids(moved)[i] == Ids(dice)[i] == dice[i].id;
        if dice[i].id == ids[0] {
          assert dice[i].id !in ids[1..];
          ApplyToIdHits(dice, i, m);
        } else {
          assert ids == [ids[0]] + ids[1..];
        }
      }
    }
  }

  /**
   * `moveSelectedDice(offsetX, offsetY)`: each selected die's position moves
   * by the offset, clamped to [0, 740] x [0, 540]; grid cells are untouched.
   */
  function MoveSelectedDice(g: GameState, offsetX: int, offsetY: int): (r: GameState)
    ensures r == g.(dice := r.dice)
    ensures |r.dice| == |g.dice|
    ensures forall i :: 0 <= i < |g.dice| && g.dice[i].id !in g.selectedDice ==> r.dice[i] == g.dice[i]
  {
    g.(dice := ApplyToSelected(g.dice, g.selectedDice, Shift(offsetX, offsetY)))
  }

  /** Under the invariant, each selected die moves by the clamped offset and keeps its grid cell. */
  lemma MoveSelectedExact(g: GameState, offsetX: int, offsetY: int)
    requires WellFormed(g)
    ensures forall i :: 0 <= i < |g.dice| && g.dice[i].isSelected ==>
      var d := MoveSelectedDice(g, offsetX, offsetY).dice[i];
      && 0 <= d.position.x <= MaxX && 0 <= d.position.y <= MaxY
      && d == MoveBy(g.dice[i], offsetX, offsetY)
      && d.gridPosition == g.dice[i].gridPosition
  {
    DistinctIds(g);
    ApplyToSelectedExact(g.dice, g.selectedDice, Shift(offsetX, offsetY));
  }

  /** The ids of a well-formed state's dice are 1 to 12, so no two are equal. */
  lemma DistinctIds(g: GameState)
    requires WellFormed(g)
    ensures NoDuplicates(Ids(g.dice))
  {
    forall i, j | 0 <= i < j < |g.dice|
      ensures Ids(g.dice)[i] != Ids(g.dice)[j]
    {
      assert DieWellFormed(g.dice[i], i) && DieWellFormed(g.dice[j], j);
    }
  }

  /** Moving the selection keeps the invariant. */
  lemma MoveSelectedWellFormed(g: GameState, offsetX: int, offsetY: int)
    requires WellFormed(g)
    ensures WellFormed(MoveSelectedDice(g, offsetX, offsetY))
  {
    var r := MoveSelectedDice(g, offsetX, offsetY);
    DistinctIds(g);
    ApplyToSelectedExact(g.dice, g.selectedDice, Shift(offsetX, offsetY));
    forall i | 0 <= i < |r.dice|
      ensures DieWellFormed(r.dice[i], i)
    {
      assert DieWellFormed(g.dice[i], i);
    }
  }

  /**
   * `snapSelectedDiceToGrid` at time `now`: each selected die is snapped to
   * the grid, then the board is scanned.
   */
  function SnapSelectedDiceToGrid(g: GameState, now: int): (r: GameState)
    ensures |r.dice| == |g.dice|
    ensures forall i :: 0 <= i < |g.dice| && g.dice[i].id !in g.selectedDice ==> r.dice[i] == g.dice[i]
    ensures r.selectedDice == g.selectedDice && r.validWords == g.validWords && r.wordsLoaded == g.wordsLoaded
    ensures !g.wordsLoaded ==> r.puzzleState == g.puzzleState
    ensures r == CheckForWords(g.(dice := r.dice), now)
  {
    CheckForWords(g.(dice := ApplyToSelected(g.dice, g.selectedDice, Snap)), now)
  }

  /** Under the invariant, every selected die ends on a grid cell at that cell's corner, where the scan finds it. */
  lemma SnapSelectedExact(g: GameState, now: int)
    requires WellFormed(g)
    ensures forall i :: 0 <= i < |g.dice| && g.dice[i].isSelected ==>
      var d := SnapSelectedDiceToGrid(g, now).dice[i];
      && d == SnapDie(g.dice[i])
      && d.position == Corner(d.gridPosition)
  {
    DistinctIds(g);
    ApplyToSelectedExact(g.dice, g.selectedDice, Snap);
  }

  /** Snapping the selection keeps the invariant. */
  lemma SnapSelectedWellFormed(g: GameState, now: int)
    requires WellFormed(g)
    ensures WellFormed(SnapSelectedDiceToGrid(g, now))
  {
    var moved := g.(dice := ApplyToSelected(g.dice, g.selectedDice, Snap));
    DistinctIds(g);
    ApplyToSelectedExact(g.dice, g.selectedDice, Snap);
    forall i | 0 <= i < |moved.dice|
      ensures DieWellFormed(moved.dice[i], i)
    {
      assert DieWellFormed(g.dice[i], i);
    }
    assert WellFormed(moved);
    CheckForWordsWellFormed(moved, now);
  }
}
